=== FILE: README.md ===
# ChatDB core in Dafny

ChatDB is a command-line assistant for a MySQL server. The user types a
question in plain English. ChatDB reduces it to tokens, recognises one of
seven query patterns, resolves the tables, attributes and value the
question mentions against the live schema, and fills the pattern's SQL
template. Beside that flow it:

- lists the server's databases;
- splits a table's columns into categorical and numerical ones;
- writes the `CREATE TABLE` statement for an uploaded CSV file, and the
  `INSERT` statement for a record typed in by hand;
- proposes sample queries, built from fixed patterns or drawn at random.

This project models that core as Dafny definitions and proves what the
code promises about it. It has these modules:

- `Wrappers`: `Option` and `Result`.
- `Text`: the Python string operations the code relies on, each with its
  defining property. These are `str.lower` on ASCII, substring `in`,
  `split(sep)[0]`, `list.index`/`list.remove`, `str.join`, `str.replace`,
  counting occurrences, and `str.format` over a template of literal pieces
  and named slots.
- `Schema`: a `DESCRIBE` row, which is a column name and its MySQL type.
- `NlpUsage` (`nlp_usage.py`) covers the following:
  - the `QUERY_PATTERNS` table and the keyword classifier;
  - the fuzzy name matcher and the column typer;
  - the entity resolver, with its mutable token list as a class;
  - SQL generation from the resolved entities.
- `DbOperation` (`db_operation.py`) covers the database listing, the schema
  split, the CSV `CREATE TABLE` statement and the placeholders of the
  hand-entered record's `INSERT`.
- `QueryGenerator` (`query_generator.py`) covers the pattern-driven query,
  the three `GROUP BY` queries and the random sample queries. Every
  `random.choice` becomes a caller-supplied index.
- `ChatDb` (`main.py`) models the natural-language flow: choose a database,
  classify, resolve, check, generate. It does this as written, and also in
  a corrected form (see Findings).

The database server's answers are inputs. The entity resolver reads them
from a `Snapshot` value, which holds three things:

- the table names (`SHOW TABLES`);
- what `DESCRIBE` returns for each table;
- the `DISTINCT` values of each column.

The other answers are plain arguments:

- the `SHOW DATABASES` rows are an argument of `DbOperation.ListDatabases`
  and of `ChatDb.Answer`, which first passes them through `ListDatabases`
  and numbers the menu from that listing, as main.py:248 does;
- the `DESCRIBE` rows read by `get_table_schema` are the argument of
  `DbOperation.GetTableSchema`, or `None` when the statement fails.

The tokenizer's output is an input to the model.

Python's truthiness of a possibly-`None` string is modelled as `Truthy`,
which means present and non-empty. `None` formatted into a template prints
as `None`, as Python's `format` does.

## Model

| member | source | states |
|---|---|---|
| Text.ContainsIffOccurs | nlp_usage.py:95 | substring `in` holds exactly when the substring occurs at some position of the string |
| Text.SplitHead | db_operation.py:187 | `split('(')[0]` is the longest prefix free of the separator; the separator follows it whenever it is shorter than the input |
| Text.SplitHeadAt | db_operation.py:187 | a separator-free text followed by the separator and anything else splits back to that text |
| Text.IndexOf | db_operation.py:10 | `list.index` gives a position holding the element with no earlier occurrence |
| Text.RemoveFirstAt | nlp_usage.py:194 | `list.remove(x)` deletes exactly the first position that holds `x` |
| Text.JoinContainsPart | db_operation.py:78 | every part of a `str.join` occurs in the joined text |
| Text.FillAgrees | nlp_usage.py:231 | a formatted template depends only on the values of the slots it actually contains |
| Text.FillAppend | nlp_usage.py:231 | formatting a concatenation of templates is the concatenation of the formatted parts |
| NlpUsage.PatternOfKey | nlp_usage.py:222-225 | looking a string up in `QUERY_PATTERNS` finds the pattern whose key it is, and finds nothing exactly when no key equals it |
| NlpUsage.KeyRoundTrip | nlp_usage.py:45-53 | every pattern's key looks up that same pattern |
| NlpUsage.MatchQueryPattern | nlp_usage.py:64-80 | the first keyword in the fixed order find, total, average, list, many, maximum decides the pattern; with no keyword it is the join pattern exactly when more than one distinct token remains, and no pattern exactly when at most one does |
| NlpUsage.FindBeatsTotal | nlp_usage.py:66-69 | a question with both "find" and "total" is a find-where query |
| NlpUsage.DistinctCountAboveOne | nlp_usage.py:78 | `len(set(tokens)) > 1` holds exactly when two tokens differ |
| NlpUsage.JoinIffTwoDifferentTokens | nlp_usage.py:78-79 | without a keyword, the join pattern is chosen exactly when two tokens differ |
| NlpUsage.RepeatedWordUnclassified | nlp_usage.py:64-80 | a question made of one repeated non-keyword word matches no pattern |
| NlpUsage.FirstMatch | nlp_usage.py:82-97 | a candidate is returned exactly when some candidate contains the token case-insensitively, and it is the first such candidate |
| NlpUsage.FirstMatchIsCandidate | nlp_usage.py:94-96 | a returned match is one of the candidates and contains the token |
| NlpUsage.FuzzyMatchBySubstring | nlp_usage.py:93-97 | the scanning loop returns the first case-insensitive substring match, or nothing |
| NlpUsage.ClassificationSplitsRows | nlp_usage.py:114-120 | the categorical and numerical lists interleave to all column names in `DESCRIBE` order |
| NlpUsage.NumericalIff | nlp_usage.py:117-118 | a name is numerical exactly when some row of that name has a lower-cased type containing int, decimal, float or double |
| NlpUsage.CategoricalIff | nlp_usage.py:119-120 | a name is categorical exactly when some row of that name has a type containing none of them |
| NlpUsage.ClassifyAttributes | nlp_usage.py:99-121 | the loop's two lists are the categorical and numerical columns |
| NlpUsage.LowerAll | nlp_usage.py:211 | the lower-cased list holds each distinct value lower-cased at the same position |
| NlpUsage.FirstHit | nlp_usage.py:190-195 | the scan stops at the first token meeting the criterion, and every earlier token misses it; nothing is found only when every token misses |
| NlpUsage.FirstHitAt | nlp_usage.py:190-195 | the first token meeting the criterion is where the scan stops |
| NlpUsage.FirstHitRemoval | nlp_usage.py:194 | removing the found token by value deletes exactly the position the scan stopped at |
| NlpUsage.Consume | nlp_usage.py:190-195 | nothing is taken exactly when no token meets the criterion; otherwise the taken token is the first one that meets it, and the rest is the list with that position deleted |
| NlpUsage.ConsumeSplits | nlp_usage.py:190-195 | taking a token splits the tokens into that token and the rest, in order |
| NlpUsage.FirstHitName | nlp_usage.py:174-184 | the attribute found for a join table is a non-empty attribute of that table |
| NlpUsage.FirstHitNameExtend | nlp_usage.py:174-184 | one more token changes the attribute only while none has been found, and only when that token matches an attribute |
| NlpUsage.CollectTables | nlp_usage.py:152-159 | at most two tables are collected, each a listed non-empty table, none twice, extending the tables already collected |
| NlpUsage.Resolve | nlp_usage.py:123-218 | `identify_entities` as a function of the tokens; its stages `ResolveJoin` (nlp_usage.py:152-184), `ResolveSingle` (nlp_usage.py:189-195), `ResolveAttribute` (nlp_usage.py:197-206) and `ResolveValue` (nlp_usage.py:209-216) have no contract of their own and are characterised by the lemmas below; the contract states that only the single-table strategy with a database removes tokens, and that every bound table is a listed non-empty table |
| NlpUsage.NoDatabaseResolvesNothing | nlp_usage.py:134-136 | without a current database nothing is resolved and no token is consumed |
| NlpUsage.ResolveValueFacts | nlp_usage.py:209-216 | a value is a remaining token whose lower-case form is among the attribute's distinct values, and it is consumed in order |
| NlpUsage.ResolveAttributeShape | nlp_usage.py:197-216 | a resolved attribute belongs to the table, and a value is found only after an attribute |
| NlpUsage.ResolveAttributeCount | nlp_usage.py:197-216 | one token is consumed per bound entity: the table's token first, then the token the attribute was matched by, then the value |
| NlpUsage.ResolveAttributeRemoval | nlp_usage.py:201-216 | the consumed and remaining tokens are exactly the input tokens, with the remaining ones in order |
| NlpUsage.SingleTableEntities | nlp_usage.py:189-206 | outside the join pattern, the second table and attribute stay empty, the table is a listed table, and the attribute is one of its columns |
| NlpUsage.SingleTableValue | nlp_usage.py:209-216 | a resolved value is a question token among the lower-cased distinct values of the resolved column |
| NlpUsage.SingleTableBindsListedTable | nlp_usage.py:189-195 | the single-table strategy never binds table2, and the table it binds is a listed, non-empty table name |
| NlpUsage.ValueTakesFirstHit | nlp_usage.py:212-216 | the value is the first remaining token whose lower-case form is among the column's lower-cased distinct values, deleted at its position |
| NlpUsage.AttributeTakesFirstHit | nlp_usage.py:197-205 | the attribute comes from the first remaining token that names a column of the table, deleted at its position; the value stage scans what is left |
| NlpUsage.SingleTableTakesFirstHits | nlp_usage.py:189-216 | with a current database and any pattern but the join, the table, the attribute and the value come from the first hitting tokens of what is left at each stage, as `PositionalSingle` reads it by positions |
| NlpUsage.SingleTableConsumption | nlp_usage.py:189-216 | resolution consumes one token per bound entity and leaves the others in order; the consumed tokens are, in order, the one that matched the table, the one that matched the attribute among that table's columns, and the value |
| NlpUsage.JoinEntities | nlp_usage.py:152-184 | the join pattern consumes nothing, binds no value, gives two different listed tables, and gives each table its own attribute |
| NlpUsage.CollectFirstTable | nlp_usage.py:153-163 | the first table collected for a join is the match of the first token that names a table |
| NlpUsage.JoinAndSingleAgreeOnTable1 | nlp_usage.py:152-195 | the join branch and the single-table branch choose the same first table |
| NlpUsage.TokenList.Remove | nlp_usage.py:194 | the caller's token list loses its first occurrence of the token |
| NlpUsage.TakeFirstMatch | nlp_usage.py:190-195 | the scan returns the match of the first table-naming token and removes that token from the list, or leaves the list alone |
| NlpUsage.TakeValue | nlp_usage.py:212-216 | the scan returns the first token among the distinct values and removes it, or leaves the list alone |
| NlpUsage.IdentifySingleTable | nlp_usage.py:189-216 | the imperative single-table branch yields the resolved entities and leaves the remaining tokens in the list |
| NlpUsage.CollectMatchedTables | nlp_usage.py:153-159 | the table loop collects the same tables as `CollectTables` |
| NlpUsage.IdentifyJoin | nlp_usage.py:152-184 | the imperative join branch yields the resolved entities |
| NlpUsage.IdentifyEntities | nlp_usage.py:123-218 | the entity resolver returns the resolved entities and leaves the caller's list with the unconsumed tokens |
| NlpUsage.GenerateSqlQueryFromNl | nlp_usage.py:220-231 | any SQL returned is the template of the pattern the string is the key of, filled with the entities, and it starts with SELECT |
| NlpUsage.UnknownPatternGivesNone | nlp_usage.py:222-223 | SQL generation fails exactly for a string that is not a pattern key |
| NlpUsage.ClassifiedPatternHasSql | nlp_usage.py:220-231 | every pattern the classifier returns has SQL |
| NlpUsage.FindWhereSql | nlp_usage.py:46 | the find pattern reads table1, attribute1 and the quoted value, printing `None` for a missing entity |
| NlpUsage.InnerJoinSql | nlp_usage.py:52 | the join pattern joins table1 to table2 on table1.attribute1 = table2.attribute2 |
| NlpUsage.SingleTableSqlIgnoresJoinFields | nlp_usage.py:46-51 | the six single-table templates do not read table2 or attribute2 |
| NlpUsage.SqlStartsWithSelect | nlp_usage.py:45-53 | every generated statement starts with `SELECT` |
| DbOperation.ListDatabases | db_operation.py:3-12 | the listing is the prefix of the server's list that stops before `information_schema`, and is the whole list when it is absent |
| DbOperation.ListDatabasesIdempotent | db_operation.py:9-10 | cutting a cut list changes nothing |
| DbOperation.ListDatabasesCut | db_operation.py:9-10 | the databases before `information_schema` are exactly what is listed |
| DbOperation.InsertSqlShape | db_operation.py:98-99 | the INSERT statement opens with `INSERT INTO <table> VALUES (`, contains one `%s` placeholder per column and ends with `)` |
| DbOperation.KindOf | db_operation.py:187-192 | a column is numerical exactly when its base type is a numerical type, and categorical exactly when it is not numerical but categorical |
| DbOperation.SchemaSplitsKnownRows | db_operation.py:183-192 | the two lists interleave to the names of the columns of known type, in order |
| DbOperation.SchemaNumericalIff | db_operation.py:189-190 | a name is numerical exactly when a row of that name has a numerical base type |
| DbOperation.SchemaCategoricalIff | db_operation.py:191-192 | a name is categorical exactly when a row of that name has a categorical base type |
| DbOperation.TinyintDropped | db_operation.py:177-192 | a `tinyint` column lands in neither list |
| DbOperation.GetTableSchema | db_operation.py:160-207 | the schema loop yields the split of the described rows, and two empty lists when `DESCRIBE` fails |
| DbOperation.MySqlType | db_operation.py:69-74 | int64 maps to INT and only it, float64 maps to FLOAT and only it, and everything else maps to VARCHAR(255) |
| DbOperation.CreateTableFromCsv | db_operation.py:65-82 | one definition per CSV column, in order, and the statement built from them |
| DbOperation.CreateTableMentionsEveryColumn | db_operation.py:75-79 | every column definition appears in the `CREATE TABLE` statement |
| DbOperation.CreateTableFrame | db_operation.py:79 | the statement opens with ``CREATE TABLE `name` (`` and closes with `);` |
| DbOperation.PlaceholderCount | db_operation.py:98-99 | the `INSERT` placeholder list holds exactly one `%s` per column |
| QueryGenerator.GenerateSqlQuery | query_generator.py:32-67 | a recognised pattern fails with IndexError exactly when it has fewer columns than it indexes; an unrecognised one, or a join without join info, gives the fallback message; a recognised one never gives it |
| QueryGenerator.NotRecognizedFallback | query_generator.py:58-67 | every other pattern string gives "Query pattern not recognized." |
| QueryGenerator.OnlyNeededColumnsRead | query_generator.py:34-66 | only the columns a pattern indexes affect its query |
| QueryGenerator.AverageFiltersAbove50 | query_generator.py:40-46 | the average query filters the third column with the constant 50, not the question's value |
| QueryGenerator.GroupByQueryGroupsByKey | query_generator.py:77-102 | each group-by query groups by the first column |
| QueryGenerator.GroupByQueryAggregatesMeasure | query_generator.py:77-102 | each group-by query applies its aggregate to the second column |
| QueryGenerator.GenerateGroupByQuery | query_generator.py:69-104 | no queries below two columns; otherwise the SUM, AVG and COUNT queries in that order |
| QueryGenerator.Choose | query_generator.py:132-136 | a draw fails with IndexError exactly on an empty list, and otherwise returns a member |
| QueryGenerator.SampleKeyHasB | query_generator.py:118-125 | only the count pattern mentions `<B>` |
| QueryGenerator.SampleKeyLacksValue | query_generator.py:118-125 | no sample pattern mentions `<value>` |
| QueryGenerator.ChooseSampleFacts | query_generator.py:131-137 | a sample fails exactly when both column lists are empty, or when the count pattern meets no categorical column; A is numerical when any is; B is categorical for the count pattern and empty otherwise; the value is always empty |
| QueryGenerator.SampleSqlIgnoresB | query_generator.py:119-124 | the five single-column sample templates do not read B |
| QueryGenerator.RunAllCount | query_generator.py:129-147 | a successful run has one query per iteration, each the result of its own draw |
| QueryGenerator.RunAllFail | query_generator.py:129-147 | the run fails exactly when some iteration's draw fails |
| QueryGenerator.RunAllStops | query_generator.py:131-137 | the first failing iteration's error ends the whole run |
| QueryGenerator.GenerateSample | query_generator.py:132-145 | one iteration produces the sample its draw determines |
| QueryGenerator.SampleLoopStep | query_generator.py:131-145 | a successful iteration extends the list, and a failing one decides every longer run |
| QueryGenerator.SampleIteration | query_generator.py:131-145 | the loop body keeps the list equal to the runs completed so far |
| QueryGenerator.GenerateSampleQueries | query_generator.py:106-147 | the loop returns `SampleQueries` for `num_queries` draws, treating a negative count as zero |
| ChatDb.SelectDatabase | main.py:253-258 | a choice selects a database exactly when it is all digits and between 1 and the list length, and it selects that database |
| ChatDb.DecimalRoundTrip | main.py:250-254 | reading back the printed menu number gives the number |
| ChatDb.ListedNumberSelects | main.py:250-258 | typing the number printed beside a database selects that database |
| ChatDb.SelectionStopsAtInformationSchema | main.py:248-258 | a database the server shows after `information_schema` gets no number: every choice selects as it would among the databases before it |
| ChatDb.GenerateSucceeds | main.py:280-283 | for a classified pattern, generation never fails and yields the filled template |
| ChatDb.AnswerOutcome | main.py:246-285 | the flow lists the server's databases and refuses a choice that is invalid for that listing, an unclassified question, and a missing or empty table1 or attribute1, each exactly in its case; it never reports a generation failure; any SQL it returns is the filled template and starts with SELECT |
| ChatDb.NaturalLanguageQuery | main.py:246-285 | the imperative flow returns what `Answer` gives |
| ChatDb.PrepareJoin | main.py:253-272 | once a database is chosen and the join pattern matched, the prepared entities are the join branch's |
| ChatDb.HalfJoinAccepted | main.py:246-285 | a join question naming one table is accepted and produces `INNER JOIN None` (see Findings) |
| ChatDb.AllBoundHasFirstFields | main.py:275-277 | every field a template reads being bound implies the check the code makes |
| ChatDb.CheckedAnswerRefinesAnswer | main.py:275-283 | the corrected flow returns the same SQL whenever it returns any, and refuses only with "entities unidentified" where the original answers |
| ChatDb.CheckedAnswerBindsEveryField | main.py:275-283 | the corrected flow's SQL is the filled template, with every slot bound to a non-empty entity |
| ChatDb.HalfJoinRefused | main.py:275-277 | the corrected flow refuses the one-table join question |
| ChatDb.FindWithoutValueAccepted | main.py:275-283 | as written, a find question with a table and an attribute but no value passes the check and compares the column with the literal `'None'` (see Findings) |
| ChatDb.FindWithoutValueRefused | main.py:275-277 | the corrected flow refuses a find question without a value |
| ChatDb.TypersDisagreeOnTinyint | nlp_usage.py:116-118 | the entity typer calls `tinyint(1)` numerical, while the schema reader drops it |

## Left out

- Tokenisation: `preprocess_query` (NLTK tokenising, stop words, lemmatising) is not modelled. The token list is an input.
- Server I/O: no cursor round trip is modelled. The entity resolver's `SHOW TABLES`, `DESCRIBE` and `SELECT DISTINCT` answers are fields of the `Snapshot` value. The `SHOW DATABASES` rows and the `DESCRIBE` rows of `get_table_schema` are plain arguments.
- Single snapshot: the snapshot is that of the database the choice selects (the `USE` at main.py:259 switches the server to it); one snapshot answers every `DESCRIBE` in a resolution, so the repeated `DESCRIBE` at nlp_usage.py:170 returns the same rows.
- Distinct values: they arrive as strings. The conversion of non-string values with `str` is not modelled.
- Execution: `USE`, running the generated SQL, fetching and printing rows (main.py:259 and 287-298), and the `execute` calls of `create_table_from_csv` and `insert_record` are left out. The model produces the statements only.
- Console input: prompts, menus, `print`, `input().strip()` and the error messages are not modelled. The typed choice is an input string.
- db_connection.py: it is not part of this model.
- Other CRUD operations: `upload_dataset`, `list_tables`, the `show_*` helpers and the update and delete operations are not modelled, nor the reading and executing parts of `insert_record`. Only its placeholder list (db_operation.py:98-99) is modelled.
- Randomness: `random.choice` is replaced by caller-supplied indices, taken modulo the list length.
- `DATABASE_SCHEMA` and the other unused module constants are not modelled.
- `str.lower` and `str.isdigit` are modelled on ASCII only. Non-ASCII letters and digits are treated as other characters.
- get_table_schema failures: any exception becomes a failed `DESCRIBE` (`None`), which yields two empty lists.
- `join_info` destructuring: it is modelled as a triple. A `join_info` of any other length, which raises in Python, is not modelled.
- QueryGenerator.SampleDescription: the description string built with `str.replace` has no property of its own beyond its definition.

## Findings

| source | as written | input that shows it | evidently intended | confidence | as-written member | corrected member |
|---|---|---|---|---|---|---|
| main.py:275-277 | The check before generating SQL only requires `table1` and `attribute1`. The join template also reads `table2` and `attribute2`, and these print as `None`. | tokens `["orders", "amount"]`, databases `["shop"]`, choice `"1"`, one table `orders(amount int)`; the answer is `SELECT * FROM orders INNER JOIN None ON orders.amount = None.None` | refuse whenever a field the chosen template reads is unresolved: the refusal message at main.py:276 says the check is about all necessary entities, and the earlier, commented-out flow at nlp_usage.py:274 also required the value | not executed | ChatDb.HalfJoinAccepted | ChatDb.HalfJoinRefused |
| main.py:275-277 | The same check lets a find question through when no token matched a distinct value of the column. The query then compares the column with the literal `'None'`, whose meaning depends on the column type: a text column is searched for the text `None`, while MySQL converts it to 0 for a numeric column such as `amount`. | find pattern, `table1` `orders`, `attribute1` `amount`, no value; the answer is `SELECT * FROM orders WHERE amount = 'None'` | refuse, as the commented-out check at nlp_usage.py:274 (`not value`) did and the message at main.py:276 describes | not executed | ChatDb.FindWithoutValueAccepted | ChatDb.FindWithoutValueRefused |

=== FILE: chat_db.dfy ===
/**
 * The natural-language query flow of the command-line front end: pick a
 * database by its number in the listing, classify the tokens, resolve the
 * entities against that database, and build the SQL text.
 */
module ChatDb {
  import opened Wrappers
  import opened Text
  import opened Schema
  import opened NlpUsage
  import DbOperation

  /** Why the flow stops before it has a query to run. */
  datatype Failure = InvalidChoice | PatternNotRecognized | EntitiesUnidentified | GenerationFailed

  predicate IsDigit(c: char)
  {
    '0' <= c <= '9'
  }

  /** `str.isdigit()` on ASCII text: non-empty and all digits. */
  predicate AllDigits(s: string)
  {
    s != [] && forall i :: 0 <= i < |s| ==> IsDigit(s[i])
  }

  /** `int(s)` for a string of decimal digits, read from the most significant end. */
  function DigitsValue(s: string): nat
    requires forall i :: 0 <= i < |s| ==> IsDigit(s[i])
  {
    if s == [] then 0
    else
      assert IsDigit(s[|s| - 1]);
      DigitsValue(s[..|s| - 1]) * 10 + (s[|s| - 1] as int - '0' as int)
  }

  /** The database named by the typed number, counting from one, when the number is valid. */
  function SelectDatabase(databases: seq<string>, choice: string): (r: Option<string>)
    ensures r.Some? <==> AllDigits(choice) && 1 <= DigitsValue(choice) <= |databases|
    ensures r.Some? ==> r.value == databases[DigitsValue(choice) - 1]
  {
    if !AllDigits(choice) || DigitsValue(choice) < 1 || DigitsValue(choice) > |databases| then None
    else Some(databases[DigitsValue(choice) - 1])
  }

  /** The decimal digits of `n`, as `str` prints a menu number. */
  function DecimalText(n: nat): (s: string)
    ensures forall i :: 0 <= i < |s| ==> IsDigit(s[i])
    ensures s != []
  {
    if n < 10 then ['0' + n as char] else DecimalText(n / 10) + ['0' + (n % 10) as char]
  }

  /** Writing a number and reading it back gives the number. */
  lemma {:induction false} DecimalRoundTrip(n: nat)
    ensures DigitsValue(DecimalText(n)) == n
  {
    var s := DecimalText(n);
    if n >= 10 {
      DecimalRoundTrip(n / 10);
      assert s[..|s| - 1] == DecimalText(n / 10);
    }
  }

  /** Typing the number printed beside a database in the listing selects that database. */
  lemma ListedNumberSelects(databases: seq<string>, i: nat)
    requires i < |databases|
    ensures SelectDatabase(databases, DecimalText(i + 1)) == Some(databases[i])
  {
    DecimalRoundTrip(i + 1);
  }

  /** What the flow has once a database is chosen, the tokens classified and the entities resolved. */
  datatype Prepared = Prepared(pattern: QueryPattern, entities: Entities)

  /**
   * A database the server shows after `information_schema` has no number in
   * the listing: every choice selects as it would among the databases before it.
   */
  lemma SelectionStopsAtInformationSchema(before: seq<string>, after: seq<string>, choice: string)
    requires DbOperation.InformationSchema !in before
    ensures SelectDatabase(DbOperation.ListDatabases(before + [DbOperation.InformationSchema] + after), choice) ==
            SelectDatabase(before, choice)
  {
    DbOperation.ListDatabasesCut(before, after);
  }

  /**
   * The steps before any check on the entities: list the databases the
   * server shows, choose one by its number in that listing, classify, resolve.
   */
  function Prepare(serverDatabases: seq<string>, choice: string, tokens: seq<string>, schema: Snapshot)
    : Result<Prepared, Failure>
  {
    match SelectDatabase(DbOperation.ListDatabases(serverDatabases), choice)
    case None => Err(InvalidChoice)
    case Some(db) =>
      match MatchQueryPattern(tokens)
      case None => Err(PatternNotRecognized)
      case Some(p) => Ok(Prepared(p, Resolve(Key(p), tokens, Some(db), schema).entities))
  }

  /** The SQL text of a pattern's template, refused when it is missing or empty. */
  function Generate(p: QueryPattern, e: Entities): Result<string, Failure>
  {
    match GenerateSqlQueryFromNl(Key(p), e)
    case None => Err(GenerationFailed)
    case Some(sql) => if sql == "" then Err(GenerationFailed) else Ok(sql)
  }

  /** The last steps: refuse when the first table or attribute is unresolved, then generate. */
  function Finish(prep: Result<Prepared, Failure>): Result<string, Failure>
  {
    match prep
    case Err(f) => Err(f)
    case Ok(r) =>
      if !Truthy(r.entities.table1) || !Truthy(r.entities.attribute1) then Err(EntitiesUnidentified)
      else Generate(r.pattern, r.entities)
  }

  /** The whole flow from the typed choice and the query tokens to the SQL text, or where it stops. */
  function Answer(serverDatabases: seq<string>, choice: string, tokens: seq<string>, schema: Snapshot): Result<string, Failure>
  {
    Finish(Prepare(serverDatabases, choice, tokens, schema))
  }

  /** A classified pattern always has a template, and the filled template starts with SELECT, so generation never fails. */
  lemma GenerateSucceeds(p: QueryPattern, e: Entities)
    ensures Generate(p, e) == Ok(Fill(Template(p), Arguments(e)))
    ensures |Generate(p, e).value| >= 6 && Generate(p, e).value[..6] == "SELECT"
  {
    KeyRoundTrip(p);
    SqlStartsWithSelect(p, e);
  }

  /**
   * An invalid number stops first, an unclassified query next, a table or
   * attribute left unresolved after that; once they are resolved, a query
   * always comes out: the matched pattern's template filled with the
   * resolved entities.
   */
  lemma AnswerOutcome(serverDatabases: seq<string>, choice: string, tokens: seq<string>, schema: Snapshot)
    ensures var r := Answer(serverDatabases, choice, tokens, schema);
            var prep := Prepare(serverDatabases, choice, tokens, schema);
            var databases := DbOperation.ListDatabases(serverDatabases);
            && (r == Err(InvalidChoice) <==> SelectDatabase(databases, choice).None?)
            && (r == Err(PatternNotRecognized) <==>
                  SelectDatabase(databases, choice).Some? && MatchQueryPattern(tokens).None?)
            && (prep.Ok? ==> prep.value.pattern == MatchQueryPattern(tokens).value)
            && (r == Err(EntitiesUnidentified) <==>
                  prep.Ok? && (!Truthy(prep.value.entities.table1) || !Truthy(prep.value.entities.attribute1)))
            && r != Err(GenerationFailed)
            && (r.Ok? ==>
                  && prep.Ok?
                  && r.value == Fill(Template(prep.value.pattern), Arguments(prep.value.entities))
                  && |r.value| >= 6 && r.value[..6] == "SELECT")
  {
    var prep := Prepare(serverDatabases, choice, tokens, schema);
    if prep.Ok? {
      GenerateSucceeds(prep.value.pattern, prep.value.entities);
    }
  }

  /** The flow, with the tokens in a list that entity resolution consumes. */
  method NaturalLanguageQuery(serverDatabases: seq<string>, choice: string, tokens: seq<string>, schema: Snapshot)
    returns (r: Result<string, Failure>)
    ensures r == Answer(serverDatabases, choice, tokens, schema)
  {
    var databases := DbOperation.ListDatabases(serverDatabases);
    if !AllDigits(choice) || DigitsValue(choice) < 1 || DigitsValue(choice) > |databases| {
      return Err(InvalidChoice);
    }
    var selectedDb := databases[DigitsValue(choice) - 1];
    var pattern := MatchQueryPattern(tokens);
    if pattern.None? {
      return Err(PatternNotRecognized);
    }
    var list := new TokenList(tokens);
    var e := IdentifyEntities(Key(pattern.value), list, Some(selectedDb), schema);
    if !Truthy(e.table1) || !Truthy(e.attribute1) {
      return Err(EntitiesUnidentified);
    }
    var sql := GenerateSqlQueryFromNl(Key(pattern.value), e);
    if sql.None? || sql.value == "" {
      return Err(GenerationFailed);
    }
    return Ok(sql.value);
  }

  // ----- a join resolved to one table -----

  /** The resolved value of a template field. */
  function FieldValue(e: Entities, f: Field): Option<string>
  {
    match f
    case Table1 => e.table1
    case Table2 => e.table2
    case Attribute1 => e.attribute1
    case Attribute2 => e.attribute2
    case Value => e.value
  }

  /** Every field the pattern's template reads was resolved to non-empty text. */
  predicate AllBound(p: QueryPattern, e: Entities)
  {
    forall i :: 0 <= i < |Template(p)| && Template(p)[i].Slot? ==> Truthy(FieldValue(e, Template(p)[i].field))
  }

  /** Every template reads the first table and the first attribute. */
  lemma AllBoundHasFirstFields(p: QueryPattern, e: Entities)
    requires AllBound(p, e)
    ensures Truthy(e.table1) && Truthy(e.attribute1)
  {
    var t := Template(p);
    match p
    case FindWhere =>
      assert t[1] == Slot(Table1) && t[3] == Slot(Attribute1);
    case InnerJoin =>
      assert t[1] == Slot(Table1) && t[7] == Slot(Attribute1);
    case ListOrdered =>
      assert t[3] == Slot(Table1) && t[1] == Slot(Attribute1);
    case _ =>
      assert t[5] == Slot(Table1) && t[1] == Slot(Attribute1);
  }

  /** A database holding one table `orders` with one integer column `amount`. */
  function OneTableShop(): Snapshot
  {
    Snapshot(["orders"], _ => [Column("amount", "int")], (_, _) => [])
  }

  /** The entities the one-table shop yields for the tokens "orders" and "amount". */
  const HalfJoin: Entities := Entities(Some("orders"), None, Some("amount"), None, None)

  lemma HalfJoinClassified()
    ensures DbOperation.ListDatabases(["shop"]) == ["shop"]
    ensures SelectDatabase(["shop"], "1") == Some("shop")
    ensures MatchQueryPattern(["orders", "amount"]) == Some(InnerJoin)
  {
    assert DbOperation.InformationSchema != "shop";
    assert DigitsValue("1") == DigitsValue("") * 10 + 1;
    var tokens := ["orders", "amount"];
    assert (set t | t in tokens) == {"orders", "amount"};
  }

  lemma HalfJoinTableMatches()
    ensures FirstMatch("orders", ["orders"]) == Some("orders")
    ensures FirstMatch("amount", ["orders"]) == None
  {
    assert Lower("orders") == "orders";
    assert Lower("amount") == "amount";
    ContainsSuffix("", "orders");
    assert "" + "orders" == "orders";
    MissingCharExcludes("orders", "amount", 'a');
  }

  lemma HalfJoinTables()
    ensures CollectTables(["orders", "amount"], ["orders"], [], 0) == ["orders"]
  {
    HalfJoinTableMatches();
    var tokens := ["orders", "amount"];
    assert CollectTables(tokens, ["orders"], [], 0) == CollectTables(tokens, ["orders"], ["orders"], 1);
    assert CollectTables(tokens, ["orders"], ["orders"], 1) == CollectTables(tokens, ["orders"], ["orders"], 2);
  }

  lemma HalfJoinAttributes()
    ensures Attributes(OneTableShop().describe("orders")) == ["amount"]
  {
    var rows := [Column("amount", "int")];
    assert Lower("int") == "int";
    ContainsSuffix("", "int");
    assert "" + "int" == "int";
    assert rows[..0] == [];
    assert NumericalColumns(rows) == ["amount"];
    assert CategoricalColumns(rows) == [];
  }

  lemma HalfJoinAttribute()
    ensures FirstHitName(["orders", "amount"], ["amount"]) == Some("amount")
  {
    assert Lower("amount") == "amount";
    assert Lower("orders") == "orders";
    MissingCharExcludes("amount", "orders", 'r');
    ContainsSuffix("", "amount");
    assert "" + "amount" == "amount";
    assert FirstMatch("orders", ["amount"]) == None;
    assert FirstMatch("amount", ["amount"]) == Some("amount");
    FirstHitAt(["orders", "amount"], NameAmong(["amount"]), 1);
  }

  /** Once the number selects a database and the tokens classify as a join, preparing runs the join strategy. */
  lemma PrepareJoin(serverDatabases: seq<string>, choice: string, tokens: seq<string>, schema: Snapshot, db: string)
    requires SelectDatabase(DbOperation.ListDatabases(serverDatabases), choice) == Some(db) && db != ""
    requires MatchQueryPattern(tokens) == Some(InnerJoin)
    ensures Prepare(serverDatabases, choice, tokens, schema) == Ok(Prepared(InnerJoin, ResolveJoin(tokens, schema).entities))
  {
  }

  lemma HalfJoinResolved()
    ensures ResolveJoin(["orders", "amount"], OneTableShop()).entities == HalfJoin
  {
    HalfJoinTables();
    HalfJoinAttributes();
    HalfJoinAttribute();
  }

  lemma HalfJoinPrepared()
    ensures Prepare(["shop"], "1", ["orders", "amount"], OneTableShop()) == Ok(Prepared(InnerJoin, HalfJoin))
  {
    HalfJoinClassified();
    PrepareJoin(["shop"], "1", ["orders", "amount"], OneTableShop(), "shop");
    HalfJoinResolved();
  }

  /** The generated join text, in terms of the rendered fields. */
  lemma GenerateInnerJoin(e: Entities)
    ensures Generate(InnerJoin, e) ==
            Ok("SELECT * FROM " + Render(e.table1) + " INNER JOIN " + Render(e.table2) + " ON " + Render(e.table1) +
               ("." + Render(e.attribute1) + " = " + Render(e.table2) + "." + Render(e.attribute2)))
  {
    InnerJoinSql(e);
  }

  /** A join with one table and its attribute passes the check as written and names a table None. */
  lemma HalfJoinFinished(table: string, attribute: string)
    requires table != "" && attribute != ""
    ensures Finish(Ok(Prepared(InnerJoin, Entities(Some(table), None, Some(attribute), None, None)))) ==
            Ok("SELECT * FROM " + table + " INNER JOIN " + "None" + " ON " + table +
               ("." + attribute + " = " + "None" + "." + "None"))
  {
    GenerateInnerJoin(Entities(Some(table), None, Some(attribute), None, None));
  }

  lemma HalfJoinCheckedFinish()
    ensures FinishChecked(Ok(Prepared(InnerJoin, HalfJoin))) == Err(EntitiesUnidentified)
  {
    assert Template(InnerJoin)[3] == Slot(Table2);
  }

  /**
   * As written: the two tokens "orders" and "amount" carry no keyword, so the
   * join pattern is chosen; only one table matches, yet the check on the
   * first table and attribute passes and the SQL joins a table named None.
   */
  lemma HalfJoinAccepted()
    ensures Answer(["shop"], "1", ["orders", "amount"], OneTableShop()) ==
            Ok("SELECT * FROM orders INNER JOIN None ON orders.amount = None.None")
  {
    HalfJoinPrepared();
    HalfJoinFinished("orders", "amount");
    assert Answer(["shop"], "1", ["orders", "amount"], OneTableShop()) == Finish(Ok(Prepared(InnerJoin, HalfJoin)));
    HalfJoinText();
  }

  lemma HalfJoinText()
    ensures "SELECT * FROM " + "orders" + " INNER JOIN " + "None" + " ON " + "orders" +
            ("." + "amount" + " = " + "None" + "." + "None") ==
            "SELECT * FROM orders INNER JOIN None ON orders.amount = None.None"
  {
    HalfJoinHeadText();
    HalfJoinTailText();
    assert "SELECT * FROM orders INNER JOIN None ON orders" + ".amount = None.None" ==
           "SELECT * FROM orders INNER JOIN None ON orders.amount = None.None";
  }

  lemma HalfJoinHeadText()
    ensures "SELECT * FROM " + "orders" + " INNER JOIN " + "None" + " ON " + "orders" ==
            "SELECT * FROM orders INNER JOIN None ON orders"
  {
    assert "SELECT * FROM " + "orders" == "SELECT * FROM orders";
    assert "SELECT * FROM orders" + " INNER JOIN " == "SELECT * FROM orders INNER JOIN ";
    assert "SELECT * FROM orders INNER JOIN " + "None" == "SELECT * FROM orders INNER JOIN None";
    assert "SELECT * FROM orders INNER JOIN None" + " ON " == "SELECT * FROM orders INNER JOIN None ON ";
  }

  lemma HalfJoinTailText()
    ensures "." + "amount" + " = " + "None" + "." + "None" == ".amount = None.None"
  {
    assert "." + "amount" == ".amount";
    assert ".amount" + " = " == ".amount = ";
    assert ".amount = " + "None" == ".amount = None";
    assert ".amount = None" + "." == ".amount = None.";
  }

  /**
   * The flow with the check its failure message describes: it stops unless
   * every field the matched template reads was resolved.
   */
  function FinishChecked(prep: Result<Prepared, Failure>): Result<string, Failure>
  {
    match prep
    case Err(f) => Err(f)
    case Ok(r) =>
      if !AllBound(r.pattern, r.entities) then Err(EntitiesUnidentified)
      else Generate(r.pattern, r.entities)
  }

  function CheckedAnswer(serverDatabases: seq<string>, choice: string, tokens: seq<string>, schema: Snapshot)
    : Result<string, Failure>
  {
    FinishChecked(Prepare(serverDatabases, choice, tokens, schema))
  }

  /**
   * The corrected flow answers as the flow as written does, except that it
   * refuses the answers that would fill a field with None.
   */
  lemma CheckedAnswerRefinesAnswer(prep: Result<Prepared, Failure>)
    ensures var r := FinishChecked(prep);
            var w := Finish(prep);
            && (r.Ok? ==> w == r)
            && (w.Err? ==> r == w)
            && (w.Ok? && r.Err? ==> r == Err(EntitiesUnidentified))
  {
    if prep.Ok? {
      GenerateSucceeds(prep.value.pattern, prep.value.entities);
      if AllBound(prep.value.pattern, prep.value.entities) {
        AllBoundHasFirstFields(prep.value.pattern, prep.value.entities);
      }
    }
  }

  /** With the check, an answer is the template filled with resolved, non-empty text in every field it reads. */
  lemma CheckedAnswerBindsEveryField(prep: Result<Prepared, Failure>)
    ensures var r := FinishChecked(prep);
            r.Ok? ==>
              && prep.Ok?
              && var p := prep.value.pattern;
                 var e := prep.value.entities;
                 && r.value == Fill(Template(p), Arguments(e))
                 && forall i :: 0 <= i < |Template(p)| && Template(p)[i].Slot? ==>
                      FieldValue(e, Template(p)[i].field).Some? &&
                      Arguments(e)(Template(p)[i].field) == FieldValue(e, Template(p)[i].field).value != ""
  {
    if prep.Ok? && AllBound(prep.value.pattern, prep.value.entities) {
      var p := prep.value.pattern;
      var e := prep.value.entities;
      GenerateSucceeds(p, e);
      forall i | 0 <= i < |Template(p)| && Template(p)[i].Slot?
        ensures Arguments(e)(Template(p)[i].field) == FieldValue(e, Template(p)[i].field).value
      {
        assert Truthy(FieldValue(e, Template(p)[i].field));
      }
    }
  }

  /** The corrected flow refuses the half-resolved join of the one-table shop. */
  lemma HalfJoinRefused()
    ensures CheckedAnswer(["shop"], "1", ["orders", "amount"], OneTableShop()) == Err(EntitiesUnidentified)
  {
    HalfJoinPrepared();
    HalfJoinCheckedFinish();
  }

  /**
   * As written: a find question whose value matched none of the column's
   * values passes the check and compares the column with the text None.
   */
  lemma FindWithoutValueAccepted(table: string, attribute: string)
    requires table != "" && attribute != ""
    ensures Finish(Ok(Prepared(FindWhere, Entities(Some(table), None, Some(attribute), None, None)))) ==
            Ok("SELECT * FROM " + table + " WHERE " + attribute + " = '" + "None" + "'")
  {
    FindWhereSql(Entities(Some(table), None, Some(attribute), None, None));
  }

  /** The corrected flow refuses a find question without a value. */
  lemma FindWithoutValueRefused(table: string, attribute: string)
    ensures FinishChecked(Ok(Prepared(FindWhere, Entities(Some(table), None, Some(attribute), None, None)))) ==
            Err(EntitiesUnidentified)
  {
    assert Template(FindWhere)[5] == Slot(Value);
  }

  /**
   * The two column typers disagree: the entity resolver counts `tinyint(1)`
   * as numeric because it mentions `int`, while the schema reader drops it.
   */
  lemma TypersDisagreeOnTinyint()
    ensures IsNumericType("tinyint(1)")
    ensures DbOperation.KindOf("tinyint(1)") == DbOperation.Dropped
  {
    assert Lower("tinyint(1)") == "tiny" + "int" + "(1)";
    ContainsSuffix("tiny", "int");
    ContainsExtendRight("tiny" + "int", "int", "(1)");
    DbOperation.TinyintDropped("1");
    assert "tinyint(" + "1" + ")" == "tinyint(1)";
  }
}

=== FILE: db_operation.dfy ===
/**
 * The deterministic schema and SQL-text helpers of db_operation.py: the
 * database list cut at `information_schema`, the base-type column typer,
 * the CREATE TABLE text built from CSV column dtypes, and the INSERT
 * placeholder list. Cursor round trips are inputs and outputs: fetched rows
 * come in as sequences, statements go out as text.
 */
module DbOperation {
  import opened Wrappers
  import opened Text
  import opened Schema

  // ----- list_databases -----

  const InformationSchema: string := "information_schema"

  /** The fetched database names up to, not including, the first `information_schema`. */
  function ListDatabases(names: seq<string>): (r: seq<string>)
    ensures |r| <= |names| && r == names[..|r|]
    ensures InformationSchema !in r
    ensures InformationSchema in names ==> names[|r|] == InformationSchema
    ensures InformationSchema !in names ==> r == names
  {
    if InformationSchema in names then names[..IndexOf(names, InformationSchema)] else names
  }

  /** Cutting twice is the same as cutting once. */
  lemma ListDatabasesIdempotent(names: seq<string>)
    ensures ListDatabases(ListDatabases(names)) == ListDatabases(names)
  {
  }

  /** System schemas listed before `information_schema` are kept; everything after it is gone. */
  lemma ListDatabasesCut(before: seq<string>, after: seq<string>)
    requires InformationSchema !in before
    ensures ListDatabases(before + [InformationSchema] + after) == before
  {
    var names := before + [InformationSchema] + after;
    var r := ListDatabases(names);
    assert names[|before|] == InformationSchema;
    assert forall k :: 0 <= k < |before| ==> names[k] == before[k];
    assert |r| == |before|;
    assert names[..|before|] == before;
  }

  // ----- get_table_schema -----

  const NumericalTypes: seq<string> := ["int", "bigint", "decimal", "float", "double", "numeric"]
  const CategoricalTypes: seq<string> :=
    ["varchar", "char", "text", "enum", "date", "time", "datetime", "year", "tinytext", "mediumtext", "longtext"]

  /** `data_type.split('(')[0].lower()`: "int(11)" has base type "int". */
  function BaseType(dataType: string): string
  {
    Lower(SplitHead(dataType, '('))
  }

  /** Where `get_table_schema` puts a column of a given type. */
  datatype Kind = Numerical | Categorical | Dropped

  function KindOf(dataType: string): (k: Kind)
    ensures k == Numerical <==> BaseType(dataType) in NumericalTypes
    ensures k == Categorical <==> BaseType(dataType) !in NumericalTypes && BaseType(dataType) in CategoricalTypes
  {
    var base := BaseType(dataType);
    if base in NumericalTypes then Numerical
    else if base in CategoricalTypes then Categorical
    else Dropped
  }

  /** The dictionary `get_table_schema` returns. */
  datatype ColumnSplit = ColumnSplit(categorical: seq<string>, numerical: seq<string>)

  /** The two lists for a sequence of DESCRIBE rows, each in row order. */
  function SplitSchema(rows: seq<Column>): ColumnSplit
  {
    if rows == [] then ColumnSplit([], [])
    else
      var init := SplitSchema(rows[..|rows| - 1]);
      var last := rows[|rows| - 1];
      match KindOf(last.sqlType)
      case Numerical => init.(numerical := init.numerical + [last.name])
      case Categorical => init.(categorical := init.categorical + [last.name])
      case Dropped => init
  }

  /** The rows `get_table_schema` keeps: those whose base type is in one of the two lists. */
  function KnownRows(rows: seq<Column>): seq<Column>
  {
    if rows == [] then []
    else
      var last := rows[|rows| - 1];
      KnownRows(rows[..|rows| - 1]) + (if KindOf(last.sqlType) == Dropped then [] else [last])
  }

  /** Every kept row lands in exactly one list, both lists keep row order, and the other rows are dropped. */
  lemma {:induction false} SchemaSplitsKnownRows(rows: seq<Column>)
    ensures IsInterleaving(Names(KnownRows(rows)), SplitSchema(rows).categorical, SplitSchema(rows).numerical)
  {
    if rows != [] {
      var init := rows[..|rows| - 1];
      var last := rows[|rows| - 1];
      SchemaSplitsKnownRows(init);
      var before := SplitSchema(init);
      var after := SplitSchema(rows);
      if KindOf(last.sqlType) != Dropped {
        var s := Names(KnownRows(rows));
        assert KnownRows(rows) == KnownRows(init) + [last];
        assert s[..|s| - 1] == Names(KnownRows(init));
        if KindOf(last.sqlType) == Numerical {
          assert after.numerical[..|after.numerical| - 1] == before.numerical;
          assert after.categorical == before.categorical;
        } else {
          assert after.categorical[..|after.categorical| - 1] == before.categorical;
          assert after.numerical == before.numerical;
        }
      } else {
        assert KnownRows(rows) == KnownRows(init);
        assert after == before;
      }
    }
  }

  /** A name is listed as numerical exactly when a row of that name has a numerical base type. */
  lemma {:induction false} SchemaNumericalIff(rows: seq<Column>, x: string)
    ensures x in SplitSchema(rows).numerical <==>
            exists i :: 0 <= i < |rows| && rows[i].name == x && KindOf(rows[i].sqlType) == Numerical
  {
    if rows != [] {
      var init := rows[..|rows| - 1];
      SchemaNumericalIff(init, x);
      assert forall i :: 0 <= i < |init| ==> init[i] == rows[i];
    }
  }

  /** A name is listed as categorical exactly when a row of that name has a categorical, non-numerical base type. */
  lemma {:induction false} SchemaCategoricalIff(rows: seq<Column>, x: string)
    ensures x in SplitSchema(rows).categorical <==>
            exists i :: 0 <= i < |rows| && rows[i].name == x && KindOf(rows[i].sqlType) == Categorical
  {
    if rows != [] {
      var init := rows[..|rows| - 1];
      SchemaCategoricalIff(init, x);
      assert forall i :: 0 <= i < |init| ==> init[i] == rows[i];
    }
  }

  /** `tinyint(n)` is in neither list, so such a column is dropped. */
  lemma TinyintDropped(width: string)
    ensures KindOf("tinyint(" + width + ")") == Dropped
  {
    SplitHeadAt("tinyint", '(', width + ")");
    assert "tinyint(" + width + ")" == "tinyint" + ['('] + (width + ")");
    assert Lower("tinyint") == "tinyint";
  }

  /**
   * The typer: DESCRIBE's rows, or `None` when DESCRIBE raised, in which case
   * both lists are empty.
   */
  method GetTableSchema(described: Option<seq<Column>>) returns (schema: ColumnSplit)
    ensures described.None? ==> schema == ColumnSplit([], [])
    ensures described.Some? ==> schema == SplitSchema(described.value)
  {
    if described.None? {
      return ColumnSplit([], []);
    }
    var columns := described.value;
    var categorical, numerical := [], [];
    for i := 0 to |columns|
      invariant ColumnSplit(categorical, numerical) == SplitSchema(columns[..i])
    {
      assert columns[..i + 1][..i] == columns[..i];
      var fieldName := columns[i].name;
      var baseType := Lower(SplitHead(columns[i].sqlType, '('));
      if baseType in NumericalTypes {
        numerical := numerical + [fieldName];
      } else if baseType in CategoricalTypes {
        categorical := categorical + [fieldName];
      }
    }
    assert columns[..|columns|] == columns;
    schema := ColumnSplit(categorical, numerical);
  }

  // ----- create_table_from_csv -----

  /** A CSV column as pandas reports it: its name and the text of its dtype. */
  datatype CsvColumn = CsvColumn(name: string, dtype: string)

  /** The MySQL type chosen for a pandas dtype. */
  function MySqlType(dtype: string): (r: string)
    ensures r == "INT" <==> dtype == "int64"
    ensures r == "FLOAT" <==> dtype == "float64"
    ensures r != "INT" && r != "FLOAT" ==> r == "VARCHAR(255)"
  {
    if dtype == "int64" then "INT"
    else if dtype == "float64" then "FLOAT"
    else "VARCHAR(255)"
  }

  /** One column definition: the backtick-quoted name, a space, the type. */
  function ColumnDefinition(c: CsvColumn): string
  {
    "`" + c.name + "` " + MySqlType(c.dtype)
  }

  /** The whole statement for a given list of column definitions. */
  function CreateTableSql(tableName: string, definitions: seq<string>): string
  {
    "CREATE TABLE `" + tableName + "` (" + Join(definitions, ", ") + ");"
  }

  /** The loop over the dtypes, appending one definition per column, then the statement. */
  method CreateTableFromCsv(tableName: string, data: seq<CsvColumn>) returns (createTableQuery: string, columns: seq<string>)
    ensures |columns| == |data|
    ensures forall i :: 0 <= i < |data| ==> columns[i] == ColumnDefinition(data[i])
    ensures createTableQuery == CreateTableSql(tableName, columns)
  {
    columns := [];
    for i := 0 to |data|
      invariant |columns| == i
      invariant forall j :: 0 <= j < i ==> columns[j] == ColumnDefinition(data[j])
    {
      var colType: string;
      if data[i].dtype == "int64" {
        colType := "INT";
      } else if data[i].dtype == "float64" {
        colType := "FLOAT";
      } else {
        colType := "VARCHAR(255)";
      }
      columns := columns + ["`" + data[i].name + "` " + colType];
    }
    var columnsSql := Join(columns, ", ");
    createTableQuery := "CREATE TABLE `" + tableName + "` (" + columnsSql + ");";
  }

  /** Every column's definition occurs in the statement. */
  lemma CreateTableMentionsEveryColumn(tableName: string, data: seq<CsvColumn>, definitions: seq<string>, i: nat)
    requires |definitions| == |data|
    requires forall j :: 0 <= j < |data| ==> definitions[j] == ColumnDefinition(data[j])
    requires i < |data|
    ensures Contains(CreateTableSql(tableName, definitions), ColumnDefinition(data[i]))
  {
    JoinContainsPart(definitions, ", ", i);
    ContainsExtendLeft("CREATE TABLE `" + tableName + "` (", Join(definitions, ", "), definitions[i]);
    ContainsExtendRight("CREATE TABLE `" + tableName + "` (" + Join(definitions, ", "), definitions[i], ");");
  }

  /** The statement opens with the quoted table name and closes the column list. */
  lemma CreateTableFrame(tableName: string, definitions: seq<string>)
    ensures var sql := CreateTableSql(tableName, definitions);
            StartsWith(sql, "CREATE TABLE `" + tableName + "` (") && sql[|sql| - 2..] == ");"
  {
    var sql := CreateTableSql(tableName, definitions);
    var head := "CREATE TABLE `" + tableName + "` (";
    assert sql == head + (Join(definitions, ", ") + ");");
    assert sql[..|head|] == head;
  }

  // ----- insert_record: the placeholder list -----

  /** `", ".join(["%s"] * n)`. */
  function Placeholders(n: nat): string
  {
    Join(seq(n, _ => "%s"), ", ")
  }

  /** The INSERT statement for a table with `n` described columns. */
  function InsertSql(tableName: string, n: nat): string
  {
    "INSERT INTO " + tableName + " VALUES (" + Placeholders(n) + ")"
  }

  /** The INSERT statement names the table and lists one placeholder per column inside `VALUES (...)`. */
  lemma InsertSqlShape(tableName: string, n: nat)
    ensures var sql := InsertSql(tableName, n);
            && StartsWith(sql, "INSERT INTO " + tableName + " VALUES (")
            && Contains(sql, Placeholders(n))
            && sql[|sql| - 1] == ')'
  {
    var head := "INSERT INTO " + tableName + " VALUES (";
    var sql := InsertSql(tableName, n);
    assert sql == head + Placeholders(n) + ")";
    assert sql[..|head|] == head;
    ContainsSuffix(head, Placeholders(n));
    ContainsExtendRight(head + Placeholders(n), Placeholders(n), ")");
  }

  /** Two or more placeholders are one `%s`, a comma and a space, then the rest. */
  lemma PlaceholdersUnfold(n: nat)
    requires n >= 2
    ensures Placeholders(n) == "%s" + (", " + Placeholders(n - 1))
  {
    var ps := seq(n, _ => "%s");
    assert ps[1..] == seq(n - 1, _ => "%s");
  }

  /** A leading `%s, ` adds exactly one occurrence. */
  lemma PlaceholderStep(t: string)
    ensures Occurrences("%s" + (", " + t), "%s") == 1 + Occurrences(t, "%s")
  {
    OccurrencesHit("%s", ", " + t);
    assert ("%s" + (", " + t))[1..] == ['s'] + ([','] + ([' '] + t));
    OccurrencesSkip('s', [','] + ([' '] + t), "%s");
    OccurrencesSkip(',', [' '] + t, "%s");
    OccurrencesSkip(' ', t, "%s");
  }

  /** One `%s` per described column. */
  lemma {:induction false} PlaceholderCount(n: nat)
    ensures Occurrences(Placeholders(n), "%s") == n
  {
    if n == 1 {
      assert Placeholders(1) == "%s" + [];
      OccurrencesHit("%s", []);
      assert ("%s" + [])[1..] == ['s'] + [];
      OccurrencesSkip('s', [], "%s");
    } else if n >= 2 {
      PlaceholdersUnfold(n);
      PlaceholderCount(n - 1);
      PlaceholderStep(Placeholders(n - 1));
    }
  }
}

=== FILE: nlp_usage.dfy ===
/**
 * The natural-language-to-SQL core of ChatDB (nlp_usage.py): the fixed
 * table of query patterns, the keyword classifier, substring fuzzy matching,
 * the DESCRIBE-based column typer, the entity resolver with its two
 * strategies, and template filling.
 *
 * Every database round trip is an input: the rows of SHOW TABLES, the
 * DESCRIBE rows of each table and the SELECT DISTINCT values of each column
 * form a `Snapshot`. The caller's token list, which the resolver edits in
 * place, is a `TokenList` object.
 */
module NlpUsage {
  import opened Wrappers
  import opened Text
  import opened Schema

  // ----- QUERY_PATTERNS -----

  /** The seven keys of the pattern table, in the order the classifier tests them. */
  datatype QueryPattern = FindWhere | ShowTotal | ShowAverage | ListOrdered | ShowCount | FindMax | InnerJoin

  /** The dictionary key under which each template is stored. */
  function Key(p: QueryPattern): string
  {
    match p
    case FindWhere => "find all <A> where <B> = <value>"
    case ShowTotal => "show total <A> in <B>"
    case ShowAverage => "show average <A> by <B>"
    case ListOrdered => "list all <A> ordered by <B>"
    case ShowCount => "show number of <A> by <B>"
    case FindMax => "find max <A>"
    case InnerJoin => "inner join <A> and <B>"
  }

  /** `pattern in QUERY_PATTERNS`, answered with the pattern whose key it is. */
  function PatternOfKey(key: string): (r: Option<QueryPattern>)
    ensures r.Some? ==> Key(r.value) == key
    ensures r.None? ==> forall p: QueryPattern :: Key(p) != key
  {
    if key == Key(FindWhere) then Some(FindWhere)
    else if key == Key(ShowTotal) then Some(ShowTotal)
    else if key == Key(ShowAverage) then Some(ShowAverage)
    else if key == Key(ListOrdered) then Some(ListOrdered)
    else if key == Key(ShowCount) then Some(ShowCount)
    else if key == Key(FindMax) then Some(FindMax)
    else if key == Key(InnerJoin) then Some(InnerJoin)
    else None
  }

  lemma KeyRoundTrip(p: QueryPattern)
    ensures PatternOfKey(Key(p)) == Some(p)
  {
  }

  /** The named fields a template may mention. */
  datatype Field = Table1 | Table2 | Attribute1 | Attribute2 | Value

  /** The SQL template of each pattern, split at its `{field}` placeholders. */
  function Template(p: QueryPattern): seq<Piece<Field>>
  {
    match p
    case FindWhere =>
      [Lit("SELECT * FROM "), Slot(Table1), Lit(" WHERE "), Slot(Attribute1), Lit(" = '"), Slot(Value), Lit("'")]
    case ShowTotal =>
      [Lit("SELECT SUM("), Slot(Attribute1), Lit(") as total_"), Slot(Attribute1), Lit(" FROM "), Slot(Table1)]
    case ShowAverage =>
      [Lit("SELECT AVG("), Slot(Attribute1), Lit(") AS avg_"), Slot(Attribute1), Lit(" FROM "), Slot(Table1)]
    case ListOrdered =>
      [Lit("SELECT "), Slot(Attribute1), Lit(" FROM "), Slot(Table1), Lit(" ORDER BY "), Slot(Attribute1), Lit(" DESC")]
    case ShowCount =>
      [Lit("SELECT COUNT("), Slot(Attribute1), Lit(") AS count_"), Slot(Attribute1), Lit(" FROM "), Slot(Table1)]
    case FindMax =>
      [Lit("SELECT MAX("), Slot(Attribute1), Lit(") AS max_"), Slot(Attribute1), Lit(" FROM "), Slot(Table1)]
    case InnerJoin =>
      [Lit("SELECT * FROM "), Slot(Table1), Lit(" INNER JOIN "), Slot(Table2), Lit(" ON "), Slot(Table1),
       Lit("."), Slot(Attribute1), Lit(" = "), Slot(Table2), Lit("."), Slot(Attribute2)]
  }

  // ----- match_query_pattern -----

  /** The keyword that selects each pattern other than the join. */
  function Trigger(p: QueryPattern): string
    requires p != InnerJoin
  {
    match p
    case FindWhere => "find"
    case ShowTotal => "total"
    case ShowAverage => "average"
    case ListOrdered => "list"
    case ShowCount => "many"
    case FindMax => "maximum"
  }

  /** The position of each pattern in the classifier's if/elif chain. */
  function Rank(p: QueryPattern): nat
  {
    match p
    case FindWhere => 0
    case ShowTotal => 1
    case ShowAverage => 2
    case ListOrdered => 3
    case ShowCount => 4
    case FindMax => 5
    case InnerJoin => 6
  }

  /** No token is one of the six keywords. */
  predicate NoTrigger(tokens: seq<string>)
  {
    forall q: QueryPattern :: q != InnerJoin ==> Trigger(q) !in tokens
  }

  /** `len(set(tokens))`. */
  function DistinctCount(tokens: seq<string>): nat
  {
    |set t | t in tokens|
  }

  /**
   * The classifier: the first keyword of the chain present among the tokens
   * decides; without any keyword, more than one distinct token means a join.
   */
  function MatchQueryPattern(tokens: seq<string>): (r: Option<QueryPattern>)
    ensures r.Some? && r.value != InnerJoin ==>
              Trigger(r.value) in tokens &&
              forall q: QueryPattern :: q != InnerJoin && Rank(q) < Rank(r.value) ==> Trigger(q) !in tokens
    ensures r == Some(InnerJoin) <==> NoTrigger(tokens) && DistinctCount(tokens) > 1
    ensures r.None? <==> NoTrigger(tokens) && DistinctCount(tokens) <= 1
  {
    if "find" in tokens then Some(FindWhere)
    else if "total" in tokens then Some(ShowTotal)
    else if "average" in tokens then Some(ShowAverage)
    else if "list" in tokens then Some(ListOrdered)
    else if "many" in tokens then Some(ShowCount)
    else if "maximum" in tokens then Some(FindMax)
    else if DistinctCount(tokens) > 1 then Some(InnerJoin)
    else None
  }

  /** Rule 1 precedes rule 2: "find" wins over "total". */
  lemma FindBeatsTotal(tokens: seq<string>)
    requires "find" in tokens && "total" in tokens
    ensures MatchQueryPattern(tokens) == Some(FindWhere)
  {
  }

  /** More than one distinct token is the same as two positions holding different tokens. */
  lemma DistinctCountAboveOne(tokens: seq<string>)
    ensures DistinctCount(tokens) > 1 <==>
            exists i, j :: 0 <= i < |tokens| && 0 <= j < |tokens| && tokens[i] != tokens[j]
  {
    var s := set t | t in tokens;
    if exists i, j :: 0 <= i < |tokens| && 0 <= j < |tokens| && tokens[i] != tokens[j] {
      var i, j :| 0 <= i < |tokens| && 0 <= j < |tokens| && tokens[i] != tokens[j];
      assert tokens[j] in s - {tokens[i]};
      assert |s - {tokens[i]}| == |s| - 1;
    } else if tokens != [] {
      assert s == {tokens[0]} by {
        forall t | t in s ensures t == tokens[0] {
          var k :| 0 <= k < |tokens| && tokens[k] == t;
        }
      }
    } else {
      assert s == {};
    }
  }

  /** Without a keyword the join pattern is chosen exactly when two tokens differ. */
  lemma JoinIffTwoDifferentTokens(tokens: seq<string>)
    requires NoTrigger(tokens)
    ensures MatchQueryPattern(tokens) == Some(InnerJoin) <==>
            exists i, j :: 0 <= i < |tokens| && 0 <= j < |tokens| && tokens[i] != tokens[j]
  {
    DistinctCountAboveOne(tokens);
  }

  /** One word that is not a keyword, repeated any number of times, is left unclassified. */
  lemma RepeatedWordUnclassified(word: string, n: nat)
    requires word !in ["find", "total", "average", "list", "many", "maximum"]
    ensures MatchQueryPattern(seq(n, _ => word)) == None
  {
    var tokens := seq(n, _ => word);
    DistinctCountAboveOne(tokens);
    assert forall q: QueryPattern :: q != InnerJoin ==> Trigger(q) in ["find", "total", "average", "list", "many", "maximum"];
    assert NoTrigger(tokens);
  }

  // ----- fuzzy_match_by_substring -----

  /** The lower-cased token occurs in the lower-cased candidate. */
  predicate Matches(token: string, candidate: string)
  {
    Contains(Lower(candidate), Lower(token))
  }

  /** The first candidate, in list order, that the token matches. */
  function FirstMatch(token: string, candidates: seq<string>): (r: Option<string>)
    ensures r.Some? <==> exists i :: 0 <= i < |candidates| && Matches(token, candidates[i])
    ensures r.Some? ==>
              exists i :: 0 <= i < |candidates| && candidates[i] == r.value && Matches(token, candidates[i]) &&
                          forall j :: 0 <= j < i ==> !Matches(token, candidates[j])
  {
    if candidates == [] then None
    else if Matches(token, candidates[0]) then Some(candidates[0])
    else
      var r := FirstMatch(token, candidates[1..]);
      assert forall i :: 0 <= i < |candidates[1..]| ==> candidates[1..][i] == candidates[i + 1];
      r
  }

  /** A matched candidate is one of the candidates, and the token occurs in it. */
  lemma FirstMatchIsCandidate(token: string, candidates: seq<string>)
    requires FirstMatch(token, candidates).Some?
    ensures FirstMatch(token, candidates).value in candidates
    ensures Matches(token, FirstMatch(token, candidates).value)
  {
  }

  /** The scan over the candidates, returning at the first one that contains the token. */
  method FuzzyMatchBySubstring(token: string, candidates: seq<string>) returns (r: Option<string>)
    ensures r == FirstMatch(token, candidates)
  {
    var tokenLower := Lower(token);
    for i := 0 to |candidates|
      invariant FirstMatch(token, candidates) == FirstMatch(token, candidates[i..])
    {
      if Contains(Lower(candidates[i]), tokenLower) {
        return Some(candidates[i]);
      }
      assert candidates[i..][1..] == candidates[i + 1..];
    }
    return None;
  }

  // ----- classify_attributes -----

  /** The lower-cased type mentions int, float, double or decimal. */
  predicate IsNumericType(sqlType: string)
  {
    var t := Lower(sqlType);
    Contains(t, "int") || Contains(t, "float") || Contains(t, "double") || Contains(t, "decimal")
  }

  /** Names of the numeric rows, in row order. */
  function NumericalColumns(rows: seq<Column>): seq<string>
  {
    if rows == [] then []
    else
      var last := rows[|rows| - 1];
      NumericalColumns(rows[..|rows| - 1]) + (if IsNumericType(last.sqlType) then [last.name] else [])
  }

  /** Names of the other rows, in row order. */
  function CategoricalColumns(rows: seq<Column>): seq<string>
  {
    if rows == [] then []
    else
      var last := rows[|rows| - 1];
      CategoricalColumns(rows[..|rows| - 1]) + (if IsNumericType(last.sqlType) then [] else [last.name])
  }

  /** Every column lands in exactly one of the two lists, and both lists keep row order. */
  lemma {:induction false} ClassificationSplitsRows(rows: seq<Column>)
    ensures IsInterleaving(Names(rows), CategoricalColumns(rows), NumericalColumns(rows))
  {
    if rows != [] {
      var init := rows[..|rows| - 1];
      var last := rows[|rows| - 1];
      ClassificationSplitsRows(init);
      var s := Names(rows);
      assert s[..|s| - 1] == Names(init);
      assert s[|s| - 1] == last.name;
      if IsNumericType(last.sqlType) {
        var b := NumericalColumns(rows);
        assert b[..|b| - 1] == NumericalColumns(init);
        assert CategoricalColumns(rows) == CategoricalColumns(init);
      } else {
        var a := CategoricalColumns(rows);
        assert a[..|a| - 1] == CategoricalColumns(init);
        assert NumericalColumns(rows) == NumericalColumns(init);
      }
    }
  }

  /** A name is listed as numerical exactly when some row of that name has a numeric type. */
  lemma {:induction false} NumericalIff(rows: seq<Column>, x: string)
    ensures x in NumericalColumns(rows) <==> exists i :: 0 <= i < |rows| && rows[i].name == x && IsNumericType(rows[i].sqlType)
  {
    if rows != [] {
      var init := rows[..|rows| - 1];
      NumericalIff(init, x);
      assert forall i :: 0 <= i < |init| ==> init[i] == rows[i];
    }
  }

  /** A name is listed as categorical exactly when some row of that name has a non-numeric type. */
  lemma {:induction false} CategoricalIff(rows: seq<Column>, x: string)
    ensures x in CategoricalColumns(rows) <==> exists i :: 0 <= i < |rows| && rows[i].name == x && !IsNumericType(rows[i].sqlType)
  {
    if rows != [] {
      var init := rows[..|rows| - 1];
      CategoricalIff(init, x);
      assert forall i :: 0 <= i < |init| ==> init[i] == rows[i];
    }
  }

  /** The loop over the DESCRIBE rows, appending each name to one of two lists. */
  method ClassifyAttributes(rows: seq<Column>) returns (categorical: seq<string>, numerical: seq<string>)
    ensures categorical == CategoricalColumns(rows)
    ensures numerical == NumericalColumns(rows)
  {
    categorical, numerical := [], [];
    for i := 0 to |rows|
      invariant categorical == CategoricalColumns(rows[..i])
      invariant numerical == NumericalColumns(rows[..i])
    {
      assert rows[..i + 1][..i] == rows[..i];
      var dataType := Lower(rows[i].sqlType);
      if Contains(dataType, "int") || Contains(dataType, "float") || Contains(dataType, "double") || Contains(dataType, "decimal") {
        numerical := numerical + [rows[i].name];
      } else {
        categorical := categorical + [rows[i].name];
      }
    }
    assert rows[..|rows|] == rows;
  }

  // ----- identify_entities -----

  /** What the database answers during one resolution. */
  datatype Snapshot = Snapshot(
    tables: seq<string>,                          // SHOW TABLES
    describe: string -> seq<Column>,              // DESCRIBE <table>
    distinctValues: (string, string) -> seq<string>  // SELECT DISTINCT <column> FROM <table>, as text
  )

  /** The five results of the resolver; `None` is a field nothing was found for. */
  datatype Entities = Entities(
    table1: Option<string>, table2: Option<string>,
    attribute1: Option<string>, attribute2: Option<string>,
    value: Option<string>)

  const Unresolved := Entities(None, None, None, None, None)

  /** Python truthiness of a string or None. */
  predicate Truthy(o: Option<string>)
  {
    o.Some? && o.value != ""
  }

  /** The columns of a table in the order the resolver scans them: categorical first, then numerical. */
  function Attributes(rows: seq<Column>): seq<string>
  {
    CategoricalColumns(rows) + NumericalColumns(rows)
  }

  /** `[str(v).lower() for v in values]`. */
  function LowerAll(values: seq<string>): (r: seq<string>)
    ensures |r| == |values| && forall i :: 0 <= i < |values| ==> r[i] == Lower(values[i])
  {
    seq(|values|, i requires 0 <= i < |values| => Lower(values[i]))
  }

  /** What a token is tested against while scanning. */
  datatype Criterion =
    | NameAmong(candidates: seq<string>)  // its fuzzy match among the names is a non-empty name
    | ValueAmong(lowered: seq<string>)    // its lower-case form is one of the values

  predicate Hits(c: Criterion, token: string)
  {
    match c
    case NameAmong(cs) => Truthy(FirstMatch(token, cs))
    case ValueAmong(vs) => Lower(token) in vs
  }

  /** The position of the first token that hits. */
  function FirstHit(tokens: seq<string>, c: Criterion): (r: Option<nat>)
    ensures r.Some? ==> r.value < |tokens| && Hits(c, tokens[r.value]) &&
                        forall j :: 0 <= j < r.value ==> !Hits(c, tokens[j])
    ensures r.None? ==> forall j :: 0 <= j < |tokens| ==> !Hits(c, tokens[j])
  {
    if tokens == [] then None
    else if Hits(c, tokens[0]) then Some(0)
    else
      assert forall j :: 0 < j < |tokens| ==> tokens[j] == tokens[1..][j - 1];
      match FirstHit(tokens[1..], c)
      case None => None
      case Some(k) => Some(k + 1)
  }

  /** A position that hits, with no hit before it, is the first hit. */
  lemma {:induction false} FirstHitAt(tokens: seq<string>, c: Criterion, i: nat)
    requires i < |tokens| && Hits(c, tokens[i])
    requires forall j :: 0 <= j < i ==> !Hits(c, tokens[j])
    ensures FirstHit(tokens, c) == Some(i)
  {
    if i > 0 {
      assert forall j :: 0 <= j < i - 1 ==> tokens[1..][j] == tokens[j + 1];
      FirstHitAt(tokens[1..], c, i - 1);
    }
  }

  /** The token at the first hit does not occur earlier, so `list.remove` deletes exactly that position. */
  lemma FirstHitRemoval(tokens: seq<string>, c: Criterion)
    requires FirstHit(tokens, c).Some?
    ensures var i := FirstHit(tokens, c).value;
            tokens[i] in tokens && RemoveFirst(tokens, tokens[i]) == tokens[..i] + tokens[i + 1..]
  {
    var i := FirstHit(tokens, c).value;
    assert tokens[i] !in tokens[..i] by {
      forall j | 0 <= j < i ensures tokens[j] != tokens[i] {
        assert !Hits(c, tokens[j]);
      }
    }
    RemoveFirstAt(tokens, tokens[i], i);
  }

  /** A token taken out of the list, and the list without it. */
  datatype Taken = Taken(token: string, rest: seq<string>)

  /** The first token that hits, and the list after `list.remove` of it. */
  function Consume(tokens: seq<string>, c: Criterion): (r: Option<Taken>)
    ensures r.None? <==> forall j :: 0 <= j < |tokens| ==> !Hits(c, tokens[j])
    ensures r.Some? ==> Hits(c, r.value.token)
    ensures r.Some? <==> FirstHit(tokens, c).Some?
    ensures r.Some? ==> var i := FirstHit(tokens, c).value;
                        r.value.token == tokens[i] && r.value.rest == tokens[..i] + tokens[i + 1..]
  {
    match FirstHit(tokens, c)
    case None => None
    case Some(i) =>
      FirstHitRemoval(tokens, c);
      Some(Taken(tokens[i], RemoveFirst(tokens, tokens[i])))
  }

  /** Deleting one position keeps the order of the rest and removes exactly that token. */
  lemma DeleteOne(s: seq<string>, i: nat)
    requires i < |s|
    ensures IsSubsequence(s[..i] + s[i + 1..], s)
    ensures multiset(s) == multiset(s[..i] + s[i + 1..]) + multiset{s[i]}
  {
    DeleteAtIsSubsequence(s, i);
    DeleteAtMultiset(s, i);
  }

  /** Taking a token out removes exactly one copy of it and keeps the order of the others. */
  lemma ConsumeSplits(tokens: seq<string>, c: Criterion)
    requires Consume(tokens, c).Some?
    ensures var t := Consume(tokens, c).value;
            multiset(tokens) == multiset(t.rest) + multiset{t.token} && IsSubsequence(t.rest, tokens)
  {
    var i := FirstHit(tokens, c).value;
    FirstHitRemoval(tokens, c);
    DeleteOne(tokens, i);
  }

  /** The name the first hitting token matches. */
  function FirstHitName(tokens: seq<string>, candidates: seq<string>): (r: Option<string>)
    ensures r.Some? ==> r.value in candidates && r.value != ""
  {
    match FirstHit(tokens, NameAmong(candidates))
    case None => None
    case Some(i) => FirstMatch(tokens[i], candidates)
  }

  /** Scanning one more token changes the result only while nothing has hit yet. */
  lemma FirstHitNameExtend(tokens: seq<string>, x: string, candidates: seq<string>)
    ensures FirstHitName(tokens + [x], candidates) ==
            if FirstHitName(tokens, candidates).Some? then FirstHitName(tokens, candidates)
            else if Truthy(FirstMatch(x, candidates)) then FirstMatch(x, candidates)
            else None
  {
    var c := NameAmong(candidates);
    var s := tokens + [x];
    assert forall j :: 0 <= j < |tokens| ==> s[j] == tokens[j];
    match FirstHit(tokens, c)
    case Some(i) =>
      FirstHitAt(s, c, i);
    case None =>
      if Hits(c, x) {
        FirstHitAt(s, c, |tokens|);
      }
  }

  /** The result of a resolution: the entities, the token list afterwards, and the tokens it consumed, in order. */
  datatype Resolution = Resolution(entities: Entities, remaining: seq<string>, consumed: seq<string>)

  /**
   * Join strategy, first step: the tables matched by the tokens in order,
   * skipping repeats, stopping once two are found.
   */
  function CollectTables(tokens: seq<string>, tables: seq<string>, matched: seq<string>, k: nat): (r: seq<string>)
    requires k <= |tokens|
    ensures |matched| < 2 ==> |r| <= 2
    ensures |matched| <= |r| && r[..|matched|] == matched
    ensures forall x :: x in r ==> x in matched || (x in tables && x != "")
    ensures (forall i, j :: 0 <= i < j < |matched| ==> matched[i] != matched[j]) ==>
              forall i, j :: 0 <= i < j < |r| ==> r[i] != r[j]
    decreases |tokens| - k
  {
    if k == |tokens| then matched
    else
      var m := FirstMatch(tokens[k], tables);
      var grown := if Truthy(m) && m.value !in matched then matched + [m.value] else matched;
      if |grown| == 2 then grown else CollectTables(tokens, tables, grown, k + 1)
  }

  /** The join strategy: up to two tables, one attribute per table, no token removed. */
  function ResolveJoin(tokens: seq<string>, schema: Snapshot): Resolution
  {
    var matched := CollectTables(tokens, schema.tables, [], 0);
    var table1 := if |matched| > 0 then Some(matched[0]) else None;
    var table2 := if |matched| > 1 then Some(matched[1]) else None;
    var attribute1 := if Truthy(table1) then FirstHitName(tokens, Attributes(schema.describe(table1.value))) else None;
    var attribute2 := if Truthy(table2) then FirstHitName(tokens, Attributes(schema.describe(table2.value))) else None;
    Resolution(Entities(table1, table2, attribute1, attribute2, None), tokens, [])
  }

  /** The single-table strategy, first stage: the table, consuming its token. */
  function ResolveSingle(tokens: seq<string>, schema: Snapshot): Resolution
  {
    match Consume(tokens, NameAmong(schema.tables))
    case None => Resolution(Unresolved, tokens, [])
    case Some(t) => ResolveAttribute(FirstMatch(t.token, schema.tables).value, t, schema)
  }

  /** Second stage: an attribute of the table, consuming its token. */
  function ResolveAttribute(table: string, t: Taken, schema: Snapshot): Resolution
  {
    var attributes := Attributes(schema.describe(table));
    match Consume(t.rest, NameAmong(attributes))
    case None => Resolution(Entities(Some(table), None, None, None, None), t.rest, [t.token])
    case Some(a) => ResolveValue(table, FirstMatch(a.token, attributes).value, [t.token, a.token], a.rest, schema)
  }

  /** Third stage: a token that is one of the column's distinct values, consumed. */
  function ResolveValue(table: string, attribute: string, consumed: seq<string>, rest: seq<string>, schema: Snapshot): Resolution
  {
    match Consume(rest, ValueAmong(LowerAll(schema.distinctValues(table, attribute))))
    case None => Resolution(Entities(Some(table), None, Some(attribute), None, None), rest, consumed)
    case Some(v) => Resolution(Entities(Some(table), None, Some(attribute), None, Some(v.token)), v.rest, consumed + [v.token])
  }

  /**
   * `identify_entities`, as a function of the tokens before the call: the
   * join strategy for the join pattern, the single-table strategy otherwise.
   * Only the single-table strategy takes tokens out of the list, and every
   * table either strategy binds is a listed, non-empty table name.
   */
  function Resolve(pattern: string, tokens: seq<string>, currentDatabase: Option<string>, schema: Snapshot): (r: Resolution)
    ensures !Truthy(currentDatabase) || pattern == Key(InnerJoin) ==> r.remaining == tokens && r.consumed == []
    ensures r.entities.table1.Some? ==> r.entities.table1.value in schema.tables && r.entities.table1.value != ""
    ensures r.entities.table2.Some? ==> r.entities.table2.value in schema.tables && r.entities.table2.value != ""
  {
    if !Truthy(currentDatabase) then Resolution(Unresolved, tokens, [])
    else if pattern == Key(InnerJoin) then
      var matched := CollectTables(tokens, schema.tables, [], 0);
      assert |matched| > 0 ==> matched[0] in matched;
      assert |matched| > 1 ==> matched[1] in matched;
      ResolveJoin(tokens, schema)
    else
      SingleTableBindsListedTable(tokens, schema);
      ResolveSingle(tokens, schema)
  }

  /** The single-table strategy binds at most one table, and it is a listed, non-empty table name. */
  lemma SingleTableBindsListedTable(tokens: seq<string>, schema: Snapshot)
    ensures var e := ResolveSingle(tokens, schema).entities;
            && e.table2.None?
            && (e.table1.Some? ==> e.table1.value in schema.tables && e.table1.value != "")
  {
    match Consume(tokens, NameAmong(schema.tables))
    case None =>
    case Some(t) =>
      FirstMatchIsCandidate(t.token, schema.tables);
      ResolveAttributeShape(FirstMatch(t.token, schema.tables).value, t, schema);
  }

  /** Without an active database nothing is resolved and no token is touched. */
  lemma NoDatabaseResolvesNothing(pattern: string, tokens: seq<string>, schema: Snapshot)
    ensures Resolve(pattern, tokens, None, schema) == Resolution(Unresolved, tokens, [])
    ensures Resolve(pattern, tokens, Some(""), schema) == Resolution(Unresolved, tokens, [])
  {
  }

  /** The number of fields the single-table strategy bound. */
  function BoundCount(e: Entities): nat
  {
    (if e.table1.Some? then 1 else 0) + (if e.attribute1.Some? then 1 else 0) + (if e.value.Some? then 1 else 0)
  }

  /** Third stage: the value, if any, is a remaining token found among the column's values, consumed once. */
  lemma ResolveValueFacts(table: string, attribute: string, consumed: seq<string>, rest: seq<string>, schema: Snapshot)
    ensures var res := ResolveValue(table, attribute, consumed, rest, schema);
            var e := res.entities;
            && e == Entities(Some(table), None, Some(attribute), None, e.value)
            && (e.value.Some? ==>
                  e.value.value in multiset(rest) &&
                  Lower(e.value.value) in LowerAll(schema.distinctValues(table, attribute)))
            && res.consumed == consumed + (if e.value.Some? then [e.value.value] else [])
            && multiset(rest) + multiset(consumed) == multiset(res.remaining) + multiset(res.consumed)
            && IsSubsequence(res.remaining, rest)
  {
    var c := ValueAmong(LowerAll(schema.distinctValues(table, attribute)));
    if Consume(rest, c).Some? {
      ConsumeSplits(rest, c);
    } else {
      SubsequenceRefl(rest);
    }
  }

  /** Second stage: the attribute belongs to the table, and a value exists only with an attribute. */
  lemma {:induction false} ResolveAttributeShape(table: string, t: Taken, schema: Snapshot)
    ensures var e := ResolveAttribute(table, t, schema).entities;
            && e.table1 == Some(table) && e.table2.None? && e.attribute2.None?
            && (e.attribute1.Some? ==> e.attribute1.value in Attributes(schema.describe(table)) && e.attribute1.value != "")
            && (e.value.Some? ==>
                  e.attribute1.Some? && e.value.value in multiset(t.rest) &&
                  Lower(e.value.value) in LowerAll(schema.distinctValues(table, e.attribute1.value)))
  {
    var attributes := Attributes(schema.describe(table));
    match Consume(t.rest, NameAmong(attributes))
    case None =>
    case Some(a) =>
      var attribute := FirstMatch(a.token, attributes).value;
      FirstMatchIsCandidate(a.token, attributes);
      ConsumeSplits(t.rest, NameAmong(attributes));
      ResolveValueFacts(table, attribute, [t.token, a.token], a.rest, schema);
  }

  /**
   * Second stage: one consumed token per bound field, in the order table,
   * attribute, value; the second one is the token the attribute was matched by.
   */
  lemma {:induction false} ResolveAttributeCount(table: string, t: Taken, schema: Snapshot)
    ensures var res := ResolveAttribute(table, t, schema);
            && |res.consumed| == BoundCount(res.entities) && res.consumed[0] == t.token
            && (res.entities.attribute1.Some? ==>
                  |res.consumed| >= 2 &&
                  FirstMatch(res.consumed[1], Attributes(schema.describe(table))) == res.entities.attribute1)
            && (res.entities.value.Some? ==> res.consumed[2] == res.entities.value.value)
  {
    var attributes := Attributes(schema.describe(table));
    match Consume(t.rest, NameAmong(attributes))
    case None =>
    case Some(a) =>
      ResolveValueFacts(table, FirstMatch(a.token, attributes).value, [t.token, a.token], a.rest, schema);
  }

  /** Second stage: each consumed token is removed once and the others keep their order. */
  lemma {:induction false} ResolveAttributeRemoval(table: string, t: Taken, schema: Snapshot)
    ensures var res := ResolveAttribute(table, t, schema);
            && multiset(t.rest) + multiset{t.token} == multiset(res.remaining) + multiset(res.consumed)
            && IsSubsequence(res.remaining, t.rest)
  {
    var attributes := Attributes(schema.describe(table));
    match Consume(t.rest, NameAmong(attributes))
    case None =>
      SubsequenceRefl(t.rest);
    case Some(a) =>
      var attribute := FirstMatch(a.token, attributes).value;
      var res := ResolveValue(table, attribute, [t.token, a.token], a.rest, schema);
      ConsumeSplits(t.rest, NameAmong(attributes));
      ResolveValueFacts(table, attribute, [t.token, a.token], a.rest, schema);
      SubsequenceTrans(res.remaining, a.rest, t.rest);
  }

  /**
   * Single-table strategy: no second table or attribute; the table is a
   * listed table; the attribute belongs to it and exists only with it.
   */
  lemma {:induction false} SingleTableEntities(pattern: string, tokens: seq<string>, db: Option<string>, schema: Snapshot)
    requires pattern != Key(InnerJoin)
    ensures var e := Resolve(pattern, tokens, db, schema).entities;
            && e.table2.None? && e.attribute2.None?
            && (e.table1.Some? ==> e.table1.value in schema.tables && e.table1.value != "")
            && (e.attribute1.Some? ==>
                  e.table1.Some? && e.attribute1.value in Attributes(schema.describe(e.table1.value)) &&
                  e.attribute1.value != "")
  {
    if Truthy(db) {
      match Consume(tokens, NameAmong(schema.tables))
      case None =>
      case Some(t) =>
        var table := FirstMatch(t.token, schema.tables).value;
        FirstMatchIsCandidate(t.token, schema.tables);
        ResolveAttributeShape(table, t, schema);
    }
  }

  /**
   * Single-table strategy: a value exists only with an attribute, is one of
   * the caller's tokens, and is one of the column's distinct values once
   * both are lower-cased.
   */
  lemma {:induction false} SingleTableValue(pattern: string, tokens: seq<string>, db: Option<string>, schema: Snapshot)
    requires pattern != Key(InnerJoin)
    ensures var e := Resolve(pattern, tokens, db, schema).entities;
            e.value.Some? ==>
              e.table1.Some? && e.attribute1.Some? && e.value.value in tokens &&
              Lower(e.value.value) in LowerAll(schema.distinctValues(e.table1.value, e.attribute1.value))
  {
    if Truthy(db) {
      match Consume(tokens, NameAmong(schema.tables))
      case None =>
      case Some(t) =>
        var table := FirstMatch(t.token, schema.tables).value;
        var e := ResolveAttribute(table, t, schema).entities;
        ResolveAttributeShape(table, t, schema);
        if e.value.Some? {
          ConsumeSplits(tokens, NameAmong(schema.tables));
          assert e.value.value in multiset(tokens);
        }
    }
  }

  /**
   * Single-table strategy: each consumed token leaves the list exactly once,
   * one per bound field, and the rest of the list keeps its order; the
   * consumed tokens are, in order, those the table, the attribute and the
   * value were found from.
   */
  lemma {:induction false} SingleTableConsumption(pattern: string, tokens: seq<string>, db: Option<string>, schema: Snapshot)
    requires pattern != Key(InnerJoin)
    ensures var res := Resolve(pattern, tokens, db, schema);
            && |res.consumed| == BoundCount(res.entities)
            && multiset(tokens) == multiset(res.remaining) + multiset(res.consumed)
            && IsSubsequence(res.remaining, tokens)
            && (res.entities.table1.Some? ==> FirstMatch(res.consumed[0], schema.tables) == res.entities.table1)
            && (res.entities.attribute1.Some? ==>
                  && res.entities.table1.Some? && |res.consumed| >= 2
                  && FirstMatch(res.consumed[1], Attributes(schema.describe(res.entities.table1.value))) ==
                     res.entities.attribute1)
            && (res.entities.value.Some? ==> res.consumed[2] == res.entities.value.value)
  {
    if !Truthy(db) {
      SubsequenceRefl(tokens);
    } else {
      match Consume(tokens, NameAmong(schema.tables))
      case None =>
        SubsequenceRefl(tokens);
      case Some(t) =>
        var table := FirstMatch(t.token, schema.tables).value;
        ConsumeSplits(tokens, NameAmong(schema.tables));
        ResolveAttributeShape(table, t, schema);
        ResolveAttributeCount(table, t, schema);
        ResolveAttributeRemoval(table, t, schema);
        SubsequenceTrans(ResolveAttribute(table, t, schema).remaining, t.rest, tokens);
    }
  }
  // The single-table strategy read by positions: each stage takes the first
  // token that hits among the tokens still in the list and deletes it at its
  // position, and the next stage scans what is left.

  function PositionalValue(table: string, attribute: string, consumed: seq<string>, rest: seq<string>, schema: Snapshot): Resolution
  {
    match FirstHit(rest, ValueAmong(LowerAll(schema.distinctValues(table, attribute))))
    case None => Resolution(Entities(Some(table), None, Some(attribute), None, None), rest, consumed)
    case Some(k) =>
      Resolution(Entities(Some(table), None, Some(attribute), None, Some(rest[k])), rest[..k] + rest[k + 1..], consumed + [rest[k]])
  }

  function PositionalAttribute(table: string, token: string, rest: seq<string>, schema: Snapshot): Resolution
  {
    var attributes := Attributes(schema.describe(table));
    match FirstHit(rest, NameAmong(attributes))
    case None => Resolution(Entities(Some(table), None, None, None, None), rest, [token])
    case Some(j) => PositionalValue(table, FirstMatch(rest[j], attributes).value, [token, rest[j]], rest[..j] + rest[j + 1..], schema)
  }

  function PositionalSingle(tokens: seq<string>, schema: Snapshot): Resolution
  {
    match FirstHit(tokens, NameAmong(schema.tables))
    case None => Resolution(Unresolved, tokens, [])
    case Some(i) => PositionalAttribute(FirstMatch(tokens[i], schema.tables).value, tokens[i], tokens[..i] + tokens[i + 1..], schema)
  }

  /** Third stage: the value is the first remaining token among the column's values, deleted at its position. */
  lemma ValueTakesFirstHit(table: string, attribute: string, consumed: seq<string>, rest: seq<string>, schema: Snapshot)
    ensures ResolveValue(table, attribute, consumed, rest, schema) == PositionalValue(table, attribute, consumed, rest, schema)
  {
  }

  /** Second stage: the attribute comes from the first remaining token that names a column of the table. */
  lemma AttributeTakesFirstHit(table: string, t: Taken, schema: Snapshot)
    ensures ResolveAttribute(table, t, schema) == PositionalAttribute(table, t.token, t.rest, schema)
  {
    var attributes := Attributes(schema.describe(table));
    match FirstHit(t.rest, NameAmong(attributes))
    case None =>
    case Some(j) =>
      var rest2 := t.rest[..j] + t.rest[j + 1..];
      assert Consume(t.rest, NameAmong(attributes)) == Some(Taken(t.rest[j], rest2));
      ValueTakesFirstHit(table, FirstMatch(t.rest[j], attributes).value, [t.token, t.rest[j]], rest2, schema);
  }

  /**
   * With a current database and any pattern but the join, the resolver takes
   * the table, the attribute and the value from the first hitting tokens, in
   * that order, and deletes each at its position.
   */
  lemma {:induction false} SingleTableTakesFirstHits(pattern: string, tokens: seq<string>, db: Option<string>, schema: Snapshot)
    requires pattern != Key(InnerJoin) && Truthy(db)
    ensures Resolve(pattern, tokens, db, schema) == PositionalSingle(tokens, schema)
  {
    match FirstHit(tokens, NameAmong(schema.tables))
    case None =>
    case Some(i) =>
      var t := Taken(tokens[i], tokens[..i] + tokens[i + 1..]);
      assert Consume(tokens, NameAmong(schema.tables)) == Some(t);
      AttributeTakesFirstHit(FirstMatch(tokens[i], schema.tables).value, t, schema);
  }

  /**
   * Join strategy: at most two different tables, the token list untouched,
   * no value, and each attribute taken from its own table's columns.
   */
  lemma JoinEntities(tokens: seq<string>, db: Option<string>, schema: Snapshot)
    ensures var res := Resolve(Key(InnerJoin), tokens, db, schema);
            var e := res.entities;
            && res.remaining == tokens && res.consumed == [] && e.value.None?
            && (e.table1.Some? ==> e.table1.value in schema.tables && e.table1.value != "")
            && (e.table2.Some? ==> e.table1.Some? && e.table2.value in schema.tables && e.table1 != e.table2)
            && (e.attribute1.Some? ==> e.table1.Some? && e.attribute1.value in Attributes(schema.describe(e.table1.value)))
            && (e.attribute2.Some? ==> e.table2.Some? && e.attribute2.value in Attributes(schema.describe(e.table2.value)))
  {
    var matched := CollectTables(tokens, schema.tables, [], 0);
    if |matched| > 0 {
      assert matched[0] in matched;
    }
    if |matched| > 1 {
      assert matched[1] in matched;
    }
  }

  /** Scanning tokens from position `k` on, the first table collected is the match of the first hitting token. */
  lemma {:induction false} CollectFirstTable(tokens: seq<string>, tables: seq<string>, k: nat)
    requires k <= |tokens|
    ensures var r := CollectTables(tokens, tables, [], k);
            match FirstHit(tokens[k..], NameAmong(tables))
            case None => r == []
            case Some(h) => r != [] && Some(r[0]) == FirstMatch(tokens[k + h], tables)
    decreases |tokens| - k
  {
    var c := NameAmong(tables);
    if k < |tokens| {
      assert tokens[k..][0] == tokens[k];
      assert tokens[k..][1..] == tokens[k + 1..];
      if !Hits(c, tokens[k]) {
        CollectFirstTable(tokens, tables, k + 1);
        match FirstHit(tokens[k + 1..], c)
        case None =>
          assert FirstHit(tokens[k..], c) == None;
        case Some(h) =>
          assert FirstHit(tokens[k..], c) == Some(h + 1);
      }
    }
  }

  /** Both strategies bind the same first table. */
  lemma JoinAndSingleAgreeOnTable1(tokens: seq<string>, schema: Snapshot)
    ensures ResolveJoin(tokens, schema).entities.table1 == ResolveSingle(tokens, schema).entities.table1
  {
    CollectFirstTable(tokens, schema.tables, 0);
    assert tokens[0..] == tokens;
    match Consume(tokens, NameAmong(schema.tables))
    case None =>
    case Some(t) =>
      ResolveAttributeShape(FirstMatch(t.token, schema.tables).value, t, schema);
  }

  /** The caller's token list, which `identify_entities` edits in place. */
  class TokenList {
    var items: seq<string>

    constructor (items: seq<string>)
      ensures this.items == items
    {
      this.items := items;
    }

    /** `list.remove`: drops the first occurrence. */
    method Remove(x: string)
      requires x in items
      modifies this
      ensures items == RemoveFirst(old(items), x)
    {
      items := RemoveFirst(items, x);
    }
  }

  /**
   * The scan shared by the table step and the attribute step: the first
   * token whose fuzzy match is non-empty is removed, and the match returned.
   */
  method TakeFirstMatch(tokens: TokenList, candidates: seq<string>) returns (found: Option<string>)
    modifies tokens
    ensures match Consume(old(tokens.items), NameAmong(candidates))
            case None => found.None? && tokens.items == old(tokens.items)
            case Some(t) => found == FirstMatch(t.token, candidates) && tokens.items == t.rest
  {
    found := None;
    ghost var toks := tokens.items;
    for i := 0 to |tokens.items|
      invariant tokens.items == toks
      invariant forall j :: 0 <= j < i ==> !Hits(NameAmong(candidates), toks[j])
    {
      var token := tokens.items[i];
      var m := FuzzyMatchBySubstring(token, candidates);
      if Truthy(m) {
        FirstHitAt(toks, NameAmong(candidates), i);
        found := m;
        tokens.Remove(token);
        return;
      }
    }
  }

  /** The value step: the first token whose lower-case form is a value of the column is removed and returned. */
  method TakeValue(tokens: TokenList, attributeValues: seq<string>) returns (value: Option<string>)
    modifies tokens
    ensures match Consume(old(tokens.items), ValueAmong(attributeValues))
            case None => value.None? && tokens.items == old(tokens.items)
            case Some(v) => value == Some(v.token) && tokens.items == v.rest
  {
    value := None;
    ghost var toks := tokens.items;
    for i := 0 to |tokens.items|
      invariant tokens.items == toks
      invariant forall j :: 0 <= j < i ==> !Hits(ValueAmong(attributeValues), toks[j])
    {
      var token := tokens.items[i];
      if Lower(token) in attributeValues {
        FirstHitAt(toks, ValueAmong(attributeValues), i);
        value := Some(token);
        tokens.Remove(token);
        return;
      }
    }
  }

  /** The single-table branch of the resolver. */
  method IdentifySingleTable(tokens: TokenList, schema: Snapshot) returns (e: Entities)
    modifies tokens
    ensures e == ResolveSingle(old(tokens.items), schema).entities
    ensures tokens.items == ResolveSingle(old(tokens.items), schema).remaining
  {
    var attribute1, value: Option<string> := None, None;
    var table1 := TakeFirstMatch(tokens, schema.tables);
    if Truthy(table1) {
      var categorical, numerical := ClassifyAttributes(schema.describe(table1.value));
      attribute1 := TakeFirstMatch(tokens, categorical + numerical);
    }
    if Truthy(table1) && Truthy(attribute1) {
      var attributeValues := LowerAll(schema.distinctValues(table1.value, attribute1.value));
      value := TakeValue(tokens, attributeValues);
    }
    e := Entities(table1, None, attribute1, None, value);
  }

  /** The join strategy's table loop: each token's fuzzy match is kept if new, until two are kept. */
  method CollectMatchedTables(tokens: seq<string>, tables: seq<string>) returns (matched: seq<string>)
    ensures matched == CollectTables(tokens, tables, [], 0)
  {
    ghost var full := CollectTables(tokens, tables, [], 0);
    matched := [];
    var k := 0;
    while k < |tokens|
      invariant k <= |tokens| && |matched| < 2
      invariant CollectTables(tokens, tables, matched, k) == full
    {
      var m := FuzzyMatchBySubstring(tokens[k], tables);
      if Truthy(m) && m.value !in matched {
        matched := matched + [m.value];
      }
      if |matched| == 2 {
        break;
      }
      k := k + 1;
    }
  }

  /** The join branch of the resolver; it reads the tokens and removes none. */
  method IdentifyJoin(tokens: seq<string>, schema: Snapshot) returns (e: Entities)
    ensures e == ResolveJoin(tokens, schema).entities
  {
    var table1, table2, attribute1, attribute2: Option<string> := None, None, None, None;
    var matched := CollectMatchedTables(tokens, schema.tables);
    if |matched| > 0 {
      table1 := Some(matched[0]);
      if |matched| > 1 {
        table2 := Some(matched[1]);
      }
    }

    var attributes1, attributes2: seq<string> := [], [];
    if Truthy(table1) {
      var categorical, _ := ClassifyAttributes(schema.describe(table1.value));
      var _, numerical := ClassifyAttributes(schema.describe(table1.value));
      attributes1 := categorical + numerical;
    }
    if Truthy(table2) {
      var categorical, _ := ClassifyAttributes(schema.describe(table2.value));
      var _, numerical := ClassifyAttributes(schema.describe(table2.value));
      attributes2 := categorical + numerical;
    }

    for i := 0 to |tokens|
      invariant attribute1 == if Truthy(table1) then FirstHitName(tokens[..i], attributes1) else None
      invariant attribute2 == if Truthy(table2) then FirstHitName(tokens[..i], attributes2) else None
    {
      var token := tokens[i];
      assert tokens[..i + 1] == tokens[..i] + [token];
      FirstHitNameExtend(tokens[..i], token, attributes1);
      FirstHitNameExtend(tokens[..i], token, attributes2);
      if Truthy(table1) && !Truthy(attribute1) {
        var m := FuzzyMatchBySubstring(token, attributes1);
        if Truthy(m) {
          attribute1 := m;
        }
      }
      if Truthy(table2) && !Truthy(attribute2) {
        var m := FuzzyMatchBySubstring(token, attributes2);
        if Truthy(m) {
          attribute2 := m;
        }
      }
    }
    assert tokens[..|tokens|] == tokens;
    e := Entities(table1, table2, attribute1, attribute2, None);
  }

  /**
   * The resolver. Returns the five entities and leaves in `tokens` what
   * the single-table strategy did not consume.
   */
  method IdentifyEntities(pattern: string, tokens: TokenList, currentDatabase: Option<string>, schema: Snapshot)
    returns (e: Entities)
    modifies tokens
    ensures e == Resolve(pattern, old(tokens.items), currentDatabase, schema).entities
    ensures tokens.items == Resolve(pattern, old(tokens.items), currentDatabase, schema).remaining
  {
    if !Truthy(currentDatabase) {
      return Unresolved;
    }
    if pattern == Key(InnerJoin) {
      e := IdentifyJoin(tokens.items, schema);
    } else {
      e := IdentifySingleTable(tokens, schema);
    }
  }

  // ----- generate_sql_query_from_nl -----

  /** `str(x)` of a field: the text itself, or "None" for an unbound field. */
  function Render(o: Option<string>): string
  {
    match o
    case Some(s) => s
    case None => "None"
  }

  /** The keyword arguments passed to `format`. */
  function Arguments(e: Entities): Field -> string
  {
    (f: Field) =>
      match f
      case Table1 => Render(e.table1)
      case Table2 => Render(e.table2)
      case Attribute1 => Render(e.attribute1)
      case Attribute2 => Render(e.attribute2)
      case Value => Render(e.value)
  }

  /**
   * The template of a known pattern, formatted with the entities; `None` for
   * an unknown pattern. Whatever comes out is the filled template of the
   * pattern the string is the key of, and starts with SELECT.
   */
  function GenerateSqlQueryFromNl(pattern: string, e: Entities): (r: Option<string>)
    ensures r.Some? ==> exists p: QueryPattern :: Key(p) == pattern && r.value == Fill(Template(p), Arguments(e))
    ensures r.Some? ==> |r.value| >= 6 && r.value[..6] == "SELECT"
  {
    match PatternOfKey(pattern)
    case None => None
    case Some(p) =>
      SqlStartsWithSelect(p, e);
      Some(Fill(Template(p), Arguments(e)))
  }

  /** A string that is not one of the seven keys gives no SQL; each key gives some. */
  lemma UnknownPatternGivesNone(pattern: string, e: Entities)
    ensures GenerateSqlQueryFromNl(pattern, e).None? <==> forall p: QueryPattern :: Key(p) != pattern
  {
    if PatternOfKey(pattern).None? {
    } else {
      assert Key(PatternOfKey(pattern).value) == pattern;
    }
  }

  /** Whatever the classifier returns has a template, so filling never fails after a successful classification. */
  lemma ClassifiedPatternHasSql(tokens: seq<string>, e: Entities)
    requires MatchQueryPattern(tokens).Some?
    ensures GenerateSqlQueryFromNl(Key(MatchQueryPattern(tokens).value), e).Some?
  {
    KeyRoundTrip(MatchQueryPattern(tokens).value);
  }

  /** The equality-filter template, filled. */
  lemma FindWhereText(e: Entities)
    ensures Fill(Template(FindWhere), Arguments(e)) ==
            "SELECT * FROM " + Render(e.table1) + " WHERE " + Render(e.attribute1) + " = '" + Render(e.value) + "'"
  {
    var t := Template(FindWhere);
    var env := Arguments(e);
    assert t[7..] == [];
    FillAt(t, 6, env);
    FillAt(t, 5, env);
  }

  /** The equality-filter pattern, with "None" standing for an unbound field. */
  lemma FindWhereSql(e: Entities)
    ensures GenerateSqlQueryFromNl(Key(FindWhere), e) ==
            Some("SELECT * FROM " + Render(e.table1) + " WHERE " + Render(e.attribute1) + " = '" + Render(e.value) + "'")
  {
    KeyRoundTrip(FindWhere);
    FindWhereText(e);
  }

  /** The inner-join template, up to and including its ON keyword and first table. */
  lemma InnerJoinHeadText(e: Entities)
    ensures Fill(Template(InnerJoin)[..6], Arguments(e)) ==
            "SELECT * FROM " + Render(e.table1) + " INNER JOIN " + Render(e.table2) + " ON " + Render(e.table1)
  {
    var head := Template(InnerJoin)[..6];
    assert head[0] == Lit("SELECT * FROM ") && head[1] == Slot(Table1) && head[2] == Lit(" INNER JOIN ");
    assert head[3] == Slot(Table2) && head[4] == Lit(" ON ") && head[5] == Slot(Table1);
    FillSix(head, Arguments(e));
  }

  /** The inner-join template's ON condition after the first table. */
  lemma InnerJoinTailText(e: Entities)
    ensures Fill(Template(InnerJoin)[6..], Arguments(e)) ==
            "." + Render(e.attribute1) + " = " + Render(e.table2) + "." + Render(e.attribute2)
  {
    var tail := Template(InnerJoin)[6..];
    assert tail == [Lit("."), Slot(Attribute1), Lit(" = "), Slot(Table2), Lit("."), Slot(Attribute2)];
    FillSix(tail, Arguments(e));
  }

  /** The inner-join template, filled. */
  lemma InnerJoinText(e: Entities)
    ensures Fill(Template(InnerJoin), Arguments(e)) ==
            "SELECT * FROM " + Render(e.table1) + " INNER JOIN " + Render(e.table2) + " ON " + Render(e.table1) +
            ("." + Render(e.attribute1) + " = " + Render(e.table2) + "." + Render(e.attribute2))
  {
    var t := Template(InnerJoin);
    assert t == t[..6] + t[6..];
    FillAppend(t[..6], t[6..], Arguments(e));
    InnerJoinHeadText(e);
    InnerJoinTailText(e);
  }

  /** The inner-join pattern. */
  lemma InnerJoinSql(e: Entities)
    ensures GenerateSqlQueryFromNl(Key(InnerJoin), e) ==
            Some("SELECT * FROM " + Render(e.table1) + " INNER JOIN " + Render(e.table2) + " ON " + Render(e.table1) +
                 ("." + Render(e.attribute1) + " = " + Render(e.table2) + "." + Render(e.attribute2)))
  {
    KeyRoundTrip(InnerJoin);
    InnerJoinText(e);
  }

  /** The six single-table templates never read `table2` or `attribute2`. */
  lemma SingleTableSqlIgnoresJoinFields(p: QueryPattern, e: Entities, table2: Option<string>, attribute2: Option<string>)
    requires p != InnerJoin
    ensures GenerateSqlQueryFromNl(Key(p), e) ==
            GenerateSqlQueryFromNl(Key(p), e.(table2 := table2, attribute2 := attribute2))
  {
    KeyRoundTrip(p);
    var t := Template(p);
    forall i | 0 <= i < |t| && t[i].Slot?
      ensures Arguments(e)(t[i].field) == Arguments(e.(table2 := table2, attribute2 := attribute2))(t[i].field)
    {
      SingleTableSlot(p, i);
    }
    FillAgrees(t, Arguments(e), Arguments(e.(table2 := table2, attribute2 := attribute2)));
  }

  /** A placeholder of a single-table template names the first table, the first attribute or the value. */
  lemma SingleTableSlot(p: QueryPattern, i: nat)
    requires p != InnerJoin && i < |Template(p)| && Template(p)[i].Slot?
    ensures Template(p)[i].field in {Table1, Attribute1, Value}
  {
  }

  /** Every filled template starts with SELECT, so the generated text is never empty. */
  lemma SqlStartsWithSelect(p: QueryPattern, e: Entities)
    ensures var sql := Fill(Template(p), Arguments(e));
            |sql| >= 6 && sql[..6] == "SELECT"
  {
    var t := Template(p);
    TemplateOpensWithSelect(p);
    assert Fill(t, Arguments(e)) == t[0].text + Fill(t[1..], Arguments(e));
    assert (t[0].text + Fill(t[1..], Arguments(e)))[..6] == t[0].text[..6];
  }

  /** Each template begins with literal text whose first word is SELECT. */
  lemma TemplateOpensWithSelect(p: QueryPattern)
    ensures Template(p) != [] && Template(p)[0].Lit?
    ensures |Template(p)[0].text| >= 6 && Template(p)[0].text[..6] == "SELECT"
  {
  }
}

=== FILE: query_generator.dfy ===
/**
 * The SQL text generators of query_generator.py: the pattern-keyed query
 * builder, the GROUP BY sample generator and the random sample generator.
 * Each random choice is a caller-supplied index (a `Draw`), taken modulo the
 * length of the list it picks from; choosing from an empty list is Python's
 * IndexError.
 */
module QueryGenerator {
  import opened Wrappers
  import opened Text

  /** The exception the generators can raise: an index past the end of a list. */
  datatype QueryError = IndexError

  /** A line break followed by the eight-space indent of the f-strings. */
  const Indent: string := "\n        "
  /** A line break followed by the twelve-space indent of the nested f-strings. */
  const DeepIndent: string := "\n            "

  // ----- generate_sql_query -----

  const TotalBy: string := "total <A> by <B>"
  const AverageWhere: string := "average <A> by <B> where <C> > <value>"
  const ListOrdered: string := "list all <A> ordered by <B>"
  const FindMax: string := "find max <A>"
  const FindJoined: string := "find <A> from <table1> joined with <table2> on <condition>"
  const NotRecognized: string := "Query pattern not recognized."

  /** The `(table1, table2, condition)` triple of a join. */
  datatype JoinInfo = JoinInfo(table1: string, table2: string, condition: string)

  /** How many leading columns a branch reads; 0 for a pattern that reaches the fallback. */
  function ColumnsNeeded(pattern: string, joinInfo: Option<JoinInfo>): nat
  {
    if pattern == TotalBy then 2
    else if pattern == AverageWhere then 3
    else if pattern == ListOrdered then 1
    else if pattern == FindMax then 1
    else if pattern == FindJoined && joinInfo.Some? then 1
    else 0
  }

  /** The query text for a pattern, or IndexError when the branch reads a column that is not there. */
  function GenerateSqlQuery(pattern: string, tableName: string, columns: seq<string>, joinInfo: Option<JoinInfo>)
    : (r: Result<string, QueryError>)
    ensures r.Err? <==> |columns| < ColumnsNeeded(pattern, joinInfo)
    ensures ColumnsNeeded(pattern, joinInfo) == 0 ==> r == Ok(NotRecognized)
    ensures ColumnsNeeded(pattern, joinInfo) > 0 && r.Ok? ==> r.value != NotRecognized
  {
    if pattern == TotalBy then
      if |columns| < 2 then Err(IndexError)
      else Ok(Indent + "SELECT " + columns[1] + ", SUM(" + columns[0] + ") AS total_" + columns[0] +
              Indent + "FROM " + tableName +
              Indent + "GROUP BY " + columns[1] + ";" + Indent)
    else if pattern == AverageWhere then
      if |columns| < 3 then Err(IndexError)
      else
        var filter := "WHERE " + columns[2] + " > 50";
        Ok(Indent + "SELECT " + columns[1] + ", AVG(" + columns[0] + ") AS avg_" + columns[0] +
           Indent + "FROM " + tableName +
           Indent + filter +
           Indent + "GROUP BY " + columns[1] + ";" + Indent)
    else if pattern == ListOrdered then
      if |columns| < 1 then Err(IndexError)
      else Ok(Indent + "SELECT *" + Indent + "FROM " + tableName + Indent + "ORDER BY " + columns[0] + " DESC;" + Indent)
    else if pattern == FindMax then
      if |columns| < 1 then Err(IndexError)
      else Ok(Indent + "SELECT MAX(" + columns[0] + ") AS max_" + columns[0] + Indent + "FROM " + tableName + ";" + Indent)
    else if pattern == FindJoined && joinInfo.Some? then
      if |columns| < 1 then Err(IndexError)
      else Ok(DeepIndent + "SELECT " + columns[0] +
              DeepIndent + "FROM " + joinInfo.value.table1 +
              DeepIndent + "JOIN " + joinInfo.value.table2 +
              DeepIndent + "ON " + joinInfo.value.condition + ";" + DeepIndent)
    else Ok(NotRecognized)
  }

  /** Any other pattern text, and the join pattern without join information, give the fallback string. */
  lemma NotRecognizedFallback(pattern: string, tableName: string, columns: seq<string>, joinInfo: Option<JoinInfo>)
    requires pattern !in [TotalBy, AverageWhere, ListOrdered, FindMax] && (pattern == FindJoined ==> joinInfo.None?)
    ensures GenerateSqlQuery(pattern, tableName, columns, joinInfo) == Ok(NotRecognized)
  {
  }

  /** Only the columns a branch needs are read: columns past them never change the text. */
  lemma OnlyNeededColumnsRead(pattern: string, tableName: string, columns: seq<string>, others: seq<string>, joinInfo: Option<JoinInfo>)
    requires ColumnsNeeded(pattern, joinInfo) <= |columns| && ColumnsNeeded(pattern, joinInfo) <= |others|
    requires columns[..ColumnsNeeded(pattern, joinInfo)] == others[..ColumnsNeeded(pattern, joinInfo)]
    ensures GenerateSqlQuery(pattern, tableName, columns, joinInfo) == GenerateSqlQuery(pattern, tableName, others, joinInfo)
  {
    var n := ColumnsNeeded(pattern, joinInfo);
    assert forall k :: 0 <= k < n ==> columns[k] == columns[..n][k] == others[..n][k] == others[k];
  }

  /** The average branch always filters its third column against the fixed bound 50. */
  lemma AverageFiltersAbove50(tableName: string, columns: seq<string>, joinInfo: Option<JoinInfo>)
    requires |columns| >= 3
    ensures GenerateSqlQuery(AverageWhere, tableName, columns, joinInfo).Ok?
    ensures Contains(GenerateSqlQuery(AverageWhere, tableName, columns, joinInfo).value, "WHERE " + columns[2] + " > 50")
  {
    var head := Indent + "SELECT " + columns[1] + ", AVG(" + columns[0] + ") AS avg_" + columns[0] +
                Indent + "FROM " + tableName + Indent;
    var filter := "WHERE " + columns[2] + " > 50";
    ContainsSuffix(head, filter);
    ContainsExtendRight(head + filter, filter, Indent);
    ContainsExtendRight(head + filter + Indent, filter, "GROUP BY ");
    ContainsExtendRight(head + filter + Indent + "GROUP BY ", filter, columns[1]);
    ContainsExtendRight(head + filter + Indent + "GROUP BY " + columns[1], filter, ";");
    ContainsExtendRight(head + filter + Indent + "GROUP BY " + columns[1] + ";", filter, Indent);
  }

  // ----- generate_group_by_query -----

  /** One generated query: a description and its SQL text. */
  datatype Query = Query(description: string, sql: string)

  /** The three aggregates, in the order they are appended. */
  datatype Aggregate = Sum | Avg | Count

  function AggregateName(g: Aggregate): string
  {
    match g
    case Sum => "SUM"
    case Avg => "AVG"
    case Count => "COUNT"
  }

  function AliasPrefix(g: Aggregate): string
  {
    match g
    case Sum => "total_"
    case Avg => "avg_"
    case Count => "count_"
  }

  function DescriptionPrefix(g: Aggregate): string
  {
    match g
    case Sum => "Total "
    case Avg => "Average "
    case Count => "Count of "
  }

  /** The aggregate of `measure` grouped by `key`. */
  function GroupByQuery(g: Aggregate, tableName: string, key: string, measure: string): Query
  {
    var call := AggregateName(g) + "(" + measure + ")";
    var select := DeepIndent + "SELECT " + key + ", " + call + " AS " + AliasPrefix(g) + measure;
    var from := DeepIndent + "FROM " + tableName;
    var groupBy := DeepIndent + "GROUP BY " + key + ";";
    Query(DescriptionPrefix(g) + measure + " by " + key, select + from + groupBy + Indent)
  }

  /** Each GROUP BY query groups by `key`. */
  lemma GroupByQueryGroupsByKey(g: Aggregate, tableName: string, key: string, measure: string)
    ensures Contains(GroupByQuery(g, tableName, key, measure).sql, "GROUP BY " + key + ";")
  {
    var call := AggregateName(g) + "(" + measure + ")";
    var select := DeepIndent + "SELECT " + key + ", " + call + " AS " + AliasPrefix(g) + measure;
    var from := DeepIndent + "FROM " + tableName;
    var clause := "GROUP BY " + key + ";";
    var groupBy := DeepIndent + "GROUP BY " + key + ";";
    assert groupBy == DeepIndent + clause;
    ContainsSuffix(DeepIndent, clause);
    ContainsExtendLeft(select + from, groupBy, clause);
    ContainsExtendRight(select + from + groupBy, clause, Indent);
  }

  /** Each GROUP BY query applies its aggregate to `measure`. */
  lemma GroupByQueryAggregatesMeasure(g: Aggregate, tableName: string, key: string, measure: string)
    ensures Contains(GroupByQuery(g, tableName, key, measure).sql, AggregateName(g) + "(" + measure + ")")
  {
    var call := AggregateName(g) + "(" + measure + ")";
    var head := DeepIndent + "SELECT " + key + ", ";
    var select := head + call + " AS " + AliasPrefix(g) + measure;
    var from := DeepIndent + "FROM " + tableName;
    var groupBy := DeepIndent + "GROUP BY " + key + ";";
    ContainsSuffix(head, call);
    ContainsExtendRight(head + call, call, " AS ");
    ContainsExtendRight(head + call + " AS ", call, AliasPrefix(g));
    ContainsExtendRight(head + call + " AS " + AliasPrefix(g), call, measure);
    ContainsExtendRight(select, call, from);
    ContainsExtendRight(select + from, call, groupBy);
    ContainsExtendRight(select + from + groupBy, call, Indent);
  }

  /** Fewer than two columns give no query; otherwise SUM, AVG, COUNT of the second column grouped by the first. */
  method GenerateGroupByQuery(tableName: string, columns: seq<string>) returns (queries: seq<Query>)
    ensures |columns| < 2 ==> queries == []
    ensures |columns| >= 2 ==>
              (&& |queries| == 3
               && queries[0] == GroupByQuery(Sum, tableName, columns[0], columns[1])
               && queries[1] == GroupByQuery(Avg, tableName, columns[0], columns[1])
               && queries[2] == GroupByQuery(Count, tableName, columns[0], columns[1]))
  {
    queries := [];
    if |columns| < 2 {
      return queries;
    }
    queries := queries + [GroupByQuery(Sum, tableName, columns[0], columns[1])];
    queries := queries + [GroupByQuery(Avg, tableName, columns[0], columns[1])];
    queries := queries + [GroupByQuery(Count, tableName, columns[0], columns[1])];
  }

  // ----- generate_sample_queries -----

  /** The six sample patterns, in the dictionary's key order. */
  datatype SamplePattern = TotalIn | MaximumIn | OrderOf | MinimumIn | AverageIn | CountGrouped

  const SamplePatterns: seq<SamplePattern> := [TotalIn, MaximumIn, OrderOf, MinimumIn, AverageIn, CountGrouped]

  function SampleKey(p: SamplePattern): string
  {
    match p
    case TotalIn => "total <A> in <table>"
    case MaximumIn => "maximum <A> in <table>"
    case OrderOf => "the order of <A> in <table>"
    case MinimumIn => "minimum <A> in <table>"
    case AverageIn => "average <A> in <table>"
    case CountGrouped => "count of <A> grouped by <B>"
  }

  /** The fields `format` is given. */
  datatype SampleField = FieldA | FieldB | FieldTable | FieldValue

  function SampleTemplate(p: SamplePattern): seq<Piece<SampleField>>
  {
    match p
    case TotalIn => [Lit("SELECT SUM("), Slot(FieldA), Lit(") AS total_"), Slot(FieldA), Lit(" FROM "), Slot(FieldTable)]
    case MaximumIn => [Lit("SELECT MAX("), Slot(FieldA), Lit(") AS max_"), Slot(FieldA), Lit(" FROM "), Slot(FieldTable)]
    case OrderOf =>
      [Lit("SELECT "), Slot(FieldA), Lit(" FROM "), Slot(FieldTable), Lit(" ORDER BY "), Slot(FieldA), Lit(" DESC")]
    case MinimumIn => [Lit("SELECT MIN("), Slot(FieldA), Lit(") AS min_"), Slot(FieldA), Lit(" FROM "), Slot(FieldTable)]
    case AverageIn => [Lit("SELECT AVG("), Slot(FieldA), Lit(") AS avg_"), Slot(FieldA), Lit(" FROM "), Slot(FieldTable)]
    case CountGrouped =>
      [Lit("SELECT "), Slot(FieldB), Lit(", COUNT("), Slot(FieldA), Lit(") AS count_"), Slot(FieldA),
       Lit(" FROM "), Slot(FieldTable), Lit(" GROUP BY "), Slot(FieldB)]
  }

  /** `pattern.replace('<A>', A).replace('<B>', B).replace('<table>', t).replace('<value>', value)`. */
  function SampleDescription(p: SamplePattern, a: string, b: string, tableName: string, value: string): string
  {
    ReplaceAll(ReplaceAll(ReplaceAll(ReplaceAll(SampleKey(p), "<A>", a), "<B>", b), "<table>", tableName), "<value>", value)
  }

  /** The caller-supplied outcome of the three `random.choice` calls of one iteration. */
  datatype Draw = Draw(pattern: nat, a: nat, b: nat)

  /** `random.choice(items)`, with the draw deciding the index. */
  function Choose(items: seq<string>, k: nat): (r: Result<string, QueryError>)
    ensures r.Err? <==> items == []
    ensures r.Ok? ==> r.value in items
  {
    if items == [] then Err(IndexError) else Ok(items[k % |items|])
  }

  /** What one iteration chose. */
  datatype Sample = Sample(pattern: SamplePattern, a: string, b: string, value: string)

  /** One iteration's choices: a pattern, A, B when the pattern has `<B>`, and the value. */
  function ChooseSample(numerical: seq<string>, categorical: seq<string>, d: Draw): Result<Sample, QueryError>
  {
    var p := SamplePatterns[d.pattern % |SamplePatterns|];
    var pool := if numerical != [] then numerical else categorical;
    match Choose(pool, d.a)
    case Err(e) => Err(e)
    case Ok(a) =>
      var b := if Contains(SampleKey(p), "<B>") then Choose(categorical, d.b) else Ok("");
      match b
      case Err(e) => Err(e)
      case Ok(b) =>
        var value := if Contains(SampleKey(p), "<value>") then "example_value" else "";
        Ok(Sample(p, a, b, value))
  }

  /** The description and SQL of one sample. */
  function RenderSample(s: Sample, tableName: string): Query
  {
    var env := (f: SampleField) =>
      match f
      case FieldA => s.a
      case FieldB => s.b
      case FieldTable => tableName
      case FieldValue => s.value;
    Query(SampleDescription(s.pattern, s.a, s.b, tableName, s.value), Fill(SampleTemplate(s.pattern), env))
  }

  /** Of the six keys, only the grouped count mentions `<B>`. */
  lemma {:induction false} SampleKeyHasB(p: SamplePattern)
    ensures Contains(SampleKey(p), "<B>") <==> p == CountGrouped
  {
    match p
    case TotalIn => TotalKeyPlain();
    case MaximumIn => MaximumKeyPlain();
    case OrderOf => OrderKeyPlain();
    case MinimumIn => MinimumKeyPlain();
    case AverageIn => AverageKeyPlain();
    case CountGrouped =>
      var key := SampleKey(p);
      assert key == key[..24] + "<B>";
      ContainsSuffix(key[..24], "<B>");
  }

  /** No key mentions `<value>`. */
  lemma {:induction false} SampleKeyLacksValue(p: SamplePattern)
    ensures !Contains(SampleKey(p), "<value>")
  {
    match p
    case TotalIn => TotalKeyPlain();
    case MaximumIn => MaximumKeyPlain();
    case OrderOf => OrderKeyPlain();
    case MinimumIn => MinimumKeyPlain();
    case AverageIn => AverageKeyPlain();
    case CountGrouped => MissingCharExcludes("count of <A> grouped by <B>", "<value>", 'v');
  }

  // One lemma per single-column key: it has neither `<B>` nor `<value>`.

  lemma TotalKeyPlain()
    ensures !Contains(SampleKey(TotalIn), "<B>") && !Contains(SampleKey(TotalIn), "<value>")
  {
    assert 'B' !in "total <A> in <table>" && 'v' !in "total <A> in <table>";
    MissingCharExcludes("total <A> in <table>", "<B>", 'B');
    MissingCharExcludes("total <A> in <table>", "<value>", 'v');
  }

  lemma MaximumKeyPlain()
    ensures !Contains(SampleKey(MaximumIn), "<B>") && !Contains(SampleKey(MaximumIn), "<value>")
  {
    assert 'B' !in "maximum <A> in <table>" && 'v' !in "maximum <A> in <table>";
    MissingCharExcludes("maximum <A> in <table>", "<B>", 'B');
    MissingCharExcludes("maximum <A> in <table>", "<value>", 'v');
  }

  lemma OrderKeyPlain()
    ensures !Contains(SampleKey(OrderOf), "<B>") && !Contains(SampleKey(OrderOf), "<value>")
  {
    assert 'B' !in "the order of <A> in <table>" && 'v' !in "the order of <A> in <table>";
    MissingCharExcludes("the order of <A> in <table>", "<B>", 'B');
    MissingCharExcludes("the order of <A> in <table>", "<value>", 'v');
  }

  lemma MinimumKeyPlain()
    ensures !Contains(SampleKey(MinimumIn), "<B>") && !Contains(SampleKey(MinimumIn), "<value>")
  {
    assert 'B' !in "minimum <A> in <table>" && 'v' !in "minimum <A> in <table>";
    MissingCharExcludes("minimum <A> in <table>", "<B>", 'B');
    MissingCharExcludes("minimum <A> in <table>", "<value>", 'v');
  }

  lemma AverageKeyPlain()
    ensures !Contains(SampleKey(AverageIn), "<B>") && !Contains(SampleKey(AverageIn), "<value>")
  {
    assert 'B' !in "average <A> in <table>" && 'u' !in "average <A> in <table>";
    MissingCharExcludes("average <A> in <table>", "<B>", 'B');
    MissingCharExcludes("average <A> in <table>", "<value>", 'u');
  }

  /**
   * One iteration fails exactly when both column lists are empty, or the
   * grouped count is drawn with no categorical column. Otherwise A comes from
   * the numerical columns when there are any and from the categorical ones
   * when not, B is a categorical column for the grouped count and empty
   * otherwise, and the value is always empty.
   */
  lemma ChooseSampleFacts(numerical: seq<string>, categorical: seq<string>, d: Draw)
    ensures var p := SamplePatterns[d.pattern % |SamplePatterns|];
            var r := ChooseSample(numerical, categorical, d);
            && (r.Err? <==> (numerical == [] && categorical == []) || (p == CountGrouped && categorical == []))
            && (r.Ok? ==>
                  && r.value.pattern == p
                  && (numerical != [] ==> r.value.a in numerical)
                  && (numerical == [] ==> r.value.a in categorical)
                  && (p == CountGrouped ==> r.value.b in categorical)
                  && (p != CountGrouped ==> r.value.b == "")
                  && r.value.value == "")
  {
    var p := SamplePatterns[d.pattern % |SamplePatterns|];
    SampleKeyHasB(p);
    SampleKeyLacksValue(p);
  }

  /** Apart from the grouped count, the SQL never reads B. */
  lemma SampleSqlIgnoresB(s: Sample, tableName: string, b: string)
    requires s.pattern != CountGrouped
    ensures RenderSample(s, tableName).sql == RenderSample(s.(b := b), tableName).sql
  {
    var t := SampleTemplate(s.pattern);
    var env1 := (f: SampleField) =>
      match f
      case FieldA => s.a
      case FieldB => s.b
      case FieldTable => tableName
      case FieldValue => s.value;
    var env2 := (f: SampleField) =>
      match f
      case FieldA => s.a
      case FieldB => b
      case FieldTable => tableName
      case FieldValue => s.value;
    forall i | 0 <= i < |t| && t[i].Slot?
      ensures env1(t[i].field) == env2(t[i].field)
    {
      assert t[i].field != FieldB;
    }
    FillAgrees(t, env1, env2);
  }

  /** One iteration: the rendered sample, or the error its choices raise. */
  function SampleAt(tableName: string, numerical: seq<string>, categorical: seq<string>, d: Draw): Result<Query, QueryError>
  {
    match ChooseSample(numerical, categorical, d)
    case Err(e) => Err(e)
    case Ok(s) => Ok(RenderSample(s, tableName))
  }

  /** The first `count` runs of `step`: their results in order, or the error of the first one that fails. */
  function RunAll<T>(count: nat, step: nat -> Result<T, QueryError>): Result<seq<T>, QueryError>
  {
    if count == 0 then Ok([])
    else
      match RunAll(count - 1, step)
      case Err(e) => Err(e)
      case Ok(done) =>
        match step(count - 1)
        case Err(e) => Err(e)
        case Ok(x) => Ok(done + [x])
  }

  /** A successful run has one entry per step, the i-th being what step i produced. */
  lemma {:induction false} RunAllCount<T>(count: nat, step: nat -> Result<T, QueryError>)
    ensures var r := RunAll(count, step);
            r.Ok? ==> |r.value| == count && forall i :: 0 <= i < count ==> step(i) == Ok(r.value[i])
  {
    if count > 0 {
      RunAllCount(count - 1, step);
    }
  }

  /** A run fails exactly when one of its steps fails. */
  lemma {:induction false} RunAllFail<T>(count: nat, step: nat -> Result<T, QueryError>)
    ensures RunAll(count, step).Err? <==> exists i :: 0 <= i < count && step(i).Err?
  {
    if count > 0 {
      RunAllFail(count - 1, step);
    }
  }

  /** A step that succeeds after a successful run extends the run by its result. */
  lemma RunAllNext<T>(i: nat, step: nat -> Result<T, QueryError>, done: seq<T>, x: T)
    requires RunAll(i, step) == Ok(done) && step(i) == Ok(x)
    ensures RunAll(i + 1, step) == Ok(done + [x])
  {
  }

  /** Once a step fails after successful ones, that error is the outcome of every longer run. */
  lemma {:induction false} RunAllStops<T>(i: nat, n: nat, step: nat -> Result<T, QueryError>)
    requires i < n && RunAll(i, step).Ok? && step(i).Err?
    ensures RunAll(n, step) == Err(step(i).error)
  {
    if n > i + 1 {
      RunAllStops(i, n - 1, step);
    }
  }

  /** Iteration i of the sample loop, driven by the i-th draw. */
  function SampleStep(tableName: string, numerical: seq<string>, categorical: seq<string>, draws: nat -> Draw)
    : nat -> Result<Query, QueryError>
  {
    (i: nat) => SampleAt(tableName, numerical, categorical, draws(i))
  }

  /** The first `count` iterations of the sample loop. */
  function SampleQueries(tableName: string, numerical: seq<string>, categorical: seq<string>, count: nat, draws: nat -> Draw)
    : Result<seq<Query>, QueryError>
  {
    RunAll(count, SampleStep(tableName, numerical, categorical, draws))
  }

  /** One iteration of the loop body: choose, then render. */
  method GenerateSample(tableName: string, numerical: seq<string>, categorical: seq<string>, d: Draw)
    returns (r: Result<Query, QueryError>)
    ensures r == SampleAt(tableName, numerical, categorical, d)
  {
    var pattern := SamplePatterns[d.pattern % |SamplePatterns|];
    var pool := if numerical != [] then numerical else categorical;
    if pool == [] {
      return Err(IndexError);
    }
    var a := pool[d.a % |pool|];
    var b := "";
    if Contains(SampleKey(pattern), "<B>") {
      if categorical == [] {
        return Err(IndexError);
      }
      b := categorical[d.b % |categorical|];
    }
    var value := if Contains(SampleKey(pattern), "<value>") then "example_value" else "";
    r := Ok(RenderSample(Sample(pattern, a, b, value), tableName));
  }

  /** One pass of the loop: a sample extends the run, an error ends every longer run. */
  lemma SampleLoopStep(tableName: string, numerical: seq<string>, categorical: seq<string>, draws: nat -> Draw,
                       i: nat, done: seq<Query>, q: Result<Query, QueryError>)
    requires SampleQueries(tableName, numerical, categorical, i, draws) == Ok(done)
    requires q == SampleAt(tableName, numerical, categorical, draws(i))
    ensures q.Ok? ==> SampleQueries(tableName, numerical, categorical, i + 1, draws) == Ok(done + [q.value])
    ensures q.Err? ==> forall n: nat :: n > i ==> SampleQueries(tableName, numerical, categorical, n, draws) == Err(q.error)
  {
    var step := SampleStep(tableName, numerical, categorical, draws);
    assert step(i) == q;
    if q.Ok? {
      RunAllNext(i, step, done, q.value);
    } else {
      forall n: nat | n > i
        ensures RunAll(n, step) == Err(q.error)
      {
        RunAllStops(i, n, step);
      }
    }
  }

  /** The loop body at iteration `i`, after the `done` queries of the earlier iterations. */
  method SampleIteration(tableName: string, numerical: seq<string>, categorical: seq<string>, draws: nat -> Draw,
                         i: nat, ghost done: seq<Query>)
    returns (q: Result<Query, QueryError>)
    requires SampleQueries(tableName, numerical, categorical, i, draws) == Ok(done)
    ensures q.Ok? ==> SampleQueries(tableName, numerical, categorical, i + 1, draws) == Ok(done + [q.value])
    ensures q.Err? ==> forall n: nat :: n > i ==> SampleQueries(tableName, numerical, categorical, n, draws) == Err(q.error)
  {
    q := GenerateSample(tableName, numerical, categorical, draws(i));
    SampleLoopStep(tableName, numerical, categorical, draws, i, done, q);
  }

  /**
   * The loop over `range(num_queries)`; a negative count runs no iteration.
   * Python's default of three queries, which the sample-query menu relies on
   * (main.py:204), is an explicit argument here.
   */
  method GenerateSampleQueries(tableName: string, numerical: seq<string>, categorical: seq<string>, numQueries: int, draws: nat -> Draw)
    returns (r: Result<seq<Query>, QueryError>)
    ensures r == SampleQueries(tableName, numerical, categorical, if numQueries < 0 then 0 else numQueries, draws)
  {
    var sampleQueries: seq<Query> := [];
    var i := 0;
    while i < numQueries
      invariant 0 <= i && (numQueries >= 0 ==> i <= numQueries) && (numQueries < 0 ==> i == 0)
      invariant SampleQueries(tableName, numerical, categorical, i, draws) == Ok(sampleQueries)
    {
      var q := SampleIteration(tableName, numerical, categorical, draws, i, sampleQueries);
      if q.Err? {
        return Err(q.error);
      }
      sampleQueries := sampleQueries + [q.value];
      i := i + 1;
    }
    return Ok(sampleQueries);
  }
}

=== FILE: schema.dfy ===
/** What DESCRIBE reports about a table, shared by both column typers. */
module Schema {
  /** One DESCRIBE row: the column name (`row[0]`) and its SQL type (`row[1]`). */
  datatype Column = Column(name: string, sqlType: string)

  /** The column names, in row order. */
  function Names(rows: seq<Column>): (r: seq<string>)
    ensures |r| == |rows| && forall i :: 0 <= i < |rows| ==> r[i] == rows[i].name
  {
    seq(|rows|, i requires 0 <= i < |rows| => rows[i].name)
  }
}

=== FILE: text.dfy ===
/**
 * The few pieces of Python's string and list behaviour that the ChatDB core
 * relies on: `str.lower`, the substring test `a in b`, `list.index`,
 * `list.remove`, `str.join`, `str.replace`, and `str.format` on templates
 * whose placeholders are all named fields.
 */
module Text {

  // ----- str.lower (ASCII letters only) -----

  function LowerChar(c: char): char
  {
    if 'A' <= c <= 'Z' then (c as int - 'A' as int + 'a' as int) as char else c
  }

  /** `s.lower()`: every upper-case ASCII letter is replaced by its lower-case form. */
  function Lower(s: string): (r: string)
    ensures |r| == |s|
    ensures forall i :: 0 <= i < |s| ==> r[i] == LowerChar(s[i])
  {
    seq(|s|, i requires 0 <= i < |s| => LowerChar(s[i]))
  }

  // ----- the substring test `sub in s` -----

  predicate StartsWith(s: string, prefix: string)
  {
    |prefix| <= |s| && s[..|prefix|] == prefix
  }

  /** Python's `sub in s` for two strings: `sub` occurs somewhere in `s` (the empty string occurs everywhere). */
  predicate Contains(s: string, sub: string)
    decreases |s|
  {
    StartsWith(s, sub) || (|s| > 0 && Contains(s[1..], sub))
  }

  /** `sub` occurs in `s` starting at position `i`. */
  predicate OccursAt(s: string, sub: string, i: nat)
  {
    i + |sub| <= |s| && s[i..i + |sub|] == sub
  }

  /** The recursive test agrees with the positional definition of an occurrence. */
  lemma {:induction false} ContainsIffOccurs(s: string, sub: string)
    ensures Contains(s, sub) <==> exists i: nat :: OccursAt(s, sub, i)
  {
    if StartsWith(s, sub) {
      assert OccursAt(s, sub, 0);
    } else if |s| == 0 {
    } else {
      ContainsIffOccurs(s[1..], sub);
      if Contains(s[1..], sub) {
        var i: nat :| OccursAt(s[1..], sub, i);
        assert s[i + 1..i + 1 + |sub|] == s[1..][i..i + |sub|];
        assert OccursAt(s, sub, i + 1);
      } else {
        forall i: nat | OccursAt(s, sub, i)
          ensures false
        {
          assert i + |sub| <= |s| && s[i..i + |sub|] == sub;
          if i > 0 {
            assert s[1..][i - 1..i - 1 + |sub|] == s[i..i + |sub|];
            assert OccursAt(s[1..], sub, i - 1);
          }
        }
      }
    }
  }

  /** A string always contains any of its suffixes. */
  lemma {:induction false} ContainsSuffix(a: string, b: string)
    ensures Contains(a + b, b)
  {
    if a == [] {
      assert a + b == b;
      assert StartsWith(b, b);
    } else {
      ContainsSuffix(a[1..], b);
      assert (a + b)[1..] == a[1..] + b;
    }
  }

  /** No occurrence of `sub` is possible when one of its characters is missing from `s`. */
  lemma {:induction false} MissingCharExcludes(s: string, sub: string, c: char)
    requires c in sub && c !in s
    ensures !Contains(s, sub)
  {
    if |s| > 0 {
      assert forall x :: x in s[1..] ==> x in s;
      MissingCharExcludes(s[1..], sub, c);
    }
  }

  /** Text appended after an occurrence keeps it. */
  lemma {:induction false} ContainsExtendRight(s: string, sub: string, c: string)
    requires Contains(s, sub)
    ensures Contains(s + c, sub)
    decreases |s|
  {
    if StartsWith(s, sub) {
      assert (s + c)[..|sub|] == s[..|sub|];
    } else {
      assert (s + c)[1..] == s[1..] + c;
      ContainsExtendRight(s[1..], sub, c);
    }
  }

  /** Text prepended before an occurrence keeps it. */
  lemma {:induction false} ContainsExtendLeft(a: string, s: string, sub: string)
    requires Contains(s, sub)
    ensures Contains(a + s, sub)
  {
    if a == [] {
      assert a + s == s;
    } else {
      assert (a + s)[1..] == a[1..] + s;
      ContainsExtendLeft(a[1..], s, sub);
    }
  }

  // ----- str.split(sep)[0] -----

  /** `s.split(sep)[0]`: the text before the first `sep`, or all of `s` when there is none. */
  function SplitHead(s: string, sep: char): (r: string)
    ensures |r| <= |s| && r == s[..|r|] && sep !in r
    ensures |r| < |s| ==> s[|r|] == sep
  {
    if s == [] || s[0] == sep then []
    else
      var r := SplitHead(s[1..], sep);
      assert [s[0]] + r == s[..|r| + 1];
      [s[0]] + r
  }

  /** Text followed by a separator splits at that separator. */
  lemma {:induction false} SplitHeadAt(a: string, sep: char, b: string)
    requires sep !in a
    ensures SplitHead(a + [sep] + b, sep) == a
  {
    if a == [] {
      assert (a + [sep] + b)[0] == sep;
    } else {
      assert (a + [sep] + b)[1..] == a[1..] + [sep] + b;
      SplitHeadAt(a[1..], sep, b);
    }
  }

  // ----- list.index and list.remove -----

  /** `s.index(x)`: the position of the first occurrence of `x`. */
  function IndexOf<T(==)>(s: seq<T>, x: T): (r: nat)
    requires x in s
    ensures r < |s| && s[r] == x && x !in s[..r]
  {
    if s[0] == x then 0
    else
      var k := IndexOf(s[1..], x);
      assert s[..k + 1] == [s[0]] + s[1..][..k];
      k + 1
  }

  /** `s.remove(x)`: drops the first occurrence of `x` (Python raises when there is none). */
  function RemoveFirst<T(==)>(s: seq<T>, x: T): seq<T>
    requires x in s
  {
    if s[0] == x then s[1..] else [s[0]] + RemoveFirst(s[1..], x)
  }

  /** Removing the first occurrence is removing at the first position that holds `x`. */
  lemma {:induction false} RemoveFirstAt<T>(s: seq<T>, x: T, i: nat)
    requires i < |s| && s[i] == x && x !in s[..i]
    ensures RemoveFirst(s, x) == s[..i] + s[i + 1..]
  {
    if i > 0 {
      assert s[0] in s[..i];
      assert s[1..][..i - 1] == s[1..i];
      RemoveFirstAt(s[1..], x, i - 1);
      assert s[..i] == [s[0]] + s[1..][..i - 1];
    }
  }

  // ----- order-preserving sub-lists -----

  /** `a` is obtained from `b` by deleting some elements and keeping the order of the rest. */
  predicate IsSubsequence<T(==)>(a: seq<T>, b: seq<T>)
    decreases |b|
  {
    if a == [] then true
    else if b == [] then false
    else if a[0] == b[0] then IsSubsequence(a[1..], b[1..])
    else IsSubsequence(a, b[1..])
  }

  lemma {:induction false} SubsequenceRefl<T>(s: seq<T>)
    ensures IsSubsequence(s, s)
  {
    if s != [] {
      SubsequenceRefl(s[1..]);
    }
  }

  lemma {:induction false} DeleteAtIsSubsequence<T>(s: seq<T>, i: nat)
    requires i < |s|
    ensures IsSubsequence(s[..i] + s[i + 1..], s)
  {
    var d := s[..i] + s[i + 1..];
    if i == 0 {
      assert d == s[1..];
      if d != [] {
        SubsequenceRefl(d);
        SubsequenceSkip(d, s[0], d);
        assert [s[0]] + d == s;
      }
    } else {
      DeleteAtIsSubsequence(s[1..], i - 1);
      assert d[0] == s[0];
      assert d[1..] == s[1..][..i - 1] + s[1..][i..];
    }
  }

  /** Deleting one position removes exactly one copy of the element there. */
  lemma DeleteAtMultiset<T>(s: seq<T>, i: nat)
    requires i < |s|
    ensures multiset(s) == multiset(s[..i] + s[i + 1..]) + multiset{s[i]}
  {
    assert s == s[..i] + ([s[i]] + s[i + 1..]);
  }

  /** Putting one more element in front of the longer list keeps the relation. */
  lemma {:induction false} SubsequenceSkip<T>(a: seq<T>, x: T, b: seq<T>)
    requires IsSubsequence(a, b)
    ensures IsSubsequence(a, [x] + b)
    decreases |b| + 1, 0
  {
    assert ([x] + b)[1..] == b;
    if a != [] && a[0] == x {
      SubsequenceTail(a, b);
    }
  }

  /** Dropping the head of the shorter list keeps the relation. */
  lemma {:induction false} SubsequenceTail<T>(a: seq<T>, b: seq<T>)
    requires a != [] && IsSubsequence(a, b)
    ensures IsSubsequence(a[1..], b)
    decreases |b|, 1
  {
    if a[0] != b[0] {
      SubsequenceTail(a, b[1..]);
    }
    SubsequenceSkip(a[1..], b[0], b[1..]);
    assert [b[0]] + b[1..] == b;
  }

  lemma {:induction false} SubsequenceTrans<T>(a: seq<T>, b: seq<T>, c: seq<T>)
    requires IsSubsequence(a, b) && IsSubsequence(b, c)
    ensures IsSubsequence(a, c)
    decreases |c|
  {
    if a != [] {
      if b[0] == c[0] {
        if a[0] == b[0] {
          SubsequenceTrans(a[1..], b[1..], c[1..]);
        } else {
          SubsequenceTrans(a, b[1..], c[1..]);
        }
      } else {
        SubsequenceTrans(a, b, c[1..]);
        if a[0] == c[0] {
          SubsequenceTail(a, c[1..]);
        }
      }
    }
  }

  /** `s` is an order-preserving merge of `a` and `b`. */
  predicate IsInterleaving<T(==)>(s: seq<T>, a: seq<T>, b: seq<T>)
    decreases |s|
  {
    if s == [] then a == [] && b == []
    else
      var x := s[|s| - 1];
      (a != [] && a[|a| - 1] == x && IsInterleaving(s[..|s| - 1], a[..|a| - 1], b)) ||
      (b != [] && b[|b| - 1] == x && IsInterleaving(s[..|s| - 1], a, b[..|b| - 1]))
  }

  // ----- str.join -----

  /** `sep.join(parts)`. */
  function Join(parts: seq<string>, sep: string): string
  {
    if parts == [] then ""
    else if |parts| == 1 then parts[0]
    else parts[0] + sep + Join(parts[1..], sep)
  }

  /** Every part occurs in the joined text. */
  lemma {:induction false} JoinContainsPart(parts: seq<string>, sep: string, i: nat)
    requires i < |parts|
    ensures Contains(Join(parts, sep), parts[i])
  {
    if |parts| == 1 {
      ContainsSuffix([], parts[0]);
      assert [] + parts[0] == parts[0];
    } else if i == 0 {
      ContainsSuffix([], parts[0]);
      assert [] + parts[0] == parts[0];
      ContainsExtendRight(parts[0], parts[0], sep + Join(parts[1..], sep));
      assert parts[0] + (sep + Join(parts[1..], sep)) == Join(parts, sep);
    } else {
      JoinContainsPart(parts[1..], sep, i - 1);
      ContainsExtendLeft(parts[0] + sep, Join(parts[1..], sep), parts[i]);
    }
  }

  // ----- str.replace -----

  /** `s.replace(target, replacement)`: every non-overlapping occurrence of `target`, scanned from the left, is replaced. */
  function ReplaceAll(s: string, target: string, replacement: string): string
    requires |target| > 0
    decreases |s|
  {
    if |s| < |target| then s
    else if StartsWith(s, target) then replacement + ReplaceAll(s[|target|..], target, replacement)
    else [s[0]] + ReplaceAll(s[1..], target, replacement)
  }

  /** The number of positions of `s` at which `sub` starts (overlaps included). */
  function Occurrences(s: string, sub: string): nat
    requires |sub| > 0
    decreases |s|
  {
    if |s| == 0 then 0
    else (if StartsWith(s, sub) then 1 else 0) + Occurrences(s[1..], sub)
  }

  /** A leading character that cannot start `sub` adds no occurrence. */
  lemma OccurrencesSkip(c: char, t: string, sub: string)
    requires |sub| > 0 && sub[0] != c
    ensures Occurrences([c] + t, sub) == Occurrences(t, sub)
  {
    var s := [c] + t;
    assert s[1..] == t;
    assert !StartsWith(s, sub) by {
      if |sub| <= |s| {
        assert s[..|sub|][0] == c;
      }
    }
  }

  /** A string that starts with `sub` has one more occurrence than its tail. */
  lemma OccurrencesHit(sub: string, rest: string)
    requires |sub| > 0
    ensures Occurrences(sub + rest, sub) == 1 + Occurrences((sub + rest)[1..], sub)
  {
    assert (sub + rest)[..|sub|] == sub;
  }

  // ----- str.format on templates with named fields -----

  /** A format string split at its `{name}` fields. */
  datatype Piece<F> = Lit(text: string) | Slot(field: F)

  /** `template.format(**env)`: literal text kept, every field replaced by its value; all at once, not in turn. */
  function PieceText<F>(p: Piece<F>, env: F -> string): string
  {
    match p
    case Lit(s) => s
    case Slot(f) => env(f)
  }

  function Fill<F>(template: seq<Piece<F>>, env: F -> string): string
  {
    if template == [] then "" else PieceText(template[0], env) + Fill(template[1..], env)
  }

  /** Filling from position `i` on is the piece at `i` followed by the filling from `i + 1` on. */
  lemma FillAt<F>(template: seq<Piece<F>>, i: nat, env: F -> string)
    requires i < |template|
    ensures Fill(template[i..], env) == PieceText(template[i], env) + Fill(template[i + 1..], env)
  {
    assert template[i..][1..] == template[i + 1..];
  }

  /** Six strings joined in either grouping. */
  lemma Assoc6<T>(a: seq<T>, b: seq<T>, c: seq<T>, d: seq<T>, e: seq<T>, f: seq<T>)
    ensures a + (b + (c + (d + (e + f)))) == a + b + c + d + e + f
  {
  }

  /** A six-piece template fills to its six piece texts, in order. */
  lemma FillSix<F>(template: seq<Piece<F>>, env: F -> string)
    requires |template| == 6
    ensures Fill(template, env) ==
            PieceText(template[0], env) + PieceText(template[1], env) + PieceText(template[2], env) +
            PieceText(template[3], env) + PieceText(template[4], env) + PieceText(template[5], env)
  {
    assert template[6..] == [];
    FillAt(template, 5, env);
    FillAt(template, 4, env);
    FillAt(template, 3, env);
    FillAt(template, 2, env);
    FillAt(template, 1, env);
    FillAt(template, 0, env);
    assert template[0..] == template;
    Assoc6(PieceText(template[0], env), PieceText(template[1], env), PieceText(template[2], env),
           PieceText(template[3], env), PieceText(template[4], env), PieceText(template[5], env));
  }

  /** Filling a concatenation of templates concatenates their fillings. */
  lemma {:induction false} FillAppend<F>(a: seq<Piece<F>>, b: seq<Piece<F>>, env: F -> string)
    ensures Fill(a + b, env) == Fill(a, env) + Fill(b, env)
  {
    if a == [] {
      assert a + b == b;
    } else {
      assert (a + b)[1..] == a[1..] + b;
      FillAppend(a[1..], b, env);
    }
  }

  /** The text of a filled template depends only on the fields the template names. */
  lemma {:induction false} FillAgrees<F>(template: seq<Piece<F>>, env1: F -> string, env2: F -> string)
    requires forall i :: 0 <= i < |template| && template[i].Slot? ==> env1(template[i].field) == env2(template[i].field)
    ensures Fill(template, env1) == Fill(template, env2)
  {
    if template != [] {
      assert forall i :: 0 <= i < |template[1..]| ==> template[1..][i] == template[i + 1];
      FillAgrees(template[1..], env1, env2);
    }
  }
}

=== FILE: wrappers.dfy ===
/** Failure-compatible wrappers shared by every module of the model. */
module Wrappers {

  /** Python's `None` or a value. */
  datatype Option<+T> = None | Some(value: T)

  /** A value, or the exception a Python function would raise instead. */
  datatype Result<+T, +E> = Ok(value: T) | Err(error: E)
}
